=== FILE: README.md ===
# Hide-and-seek decision logic in Dafny

A model of the discrete decision logic of a small Unity hide-and-seek game.
All geometry and engine services are inputs to the model:

- the enemy's cover planner (`EnemyMovement`): a ten-slot collider buffer
  that is cleared, filtered, sorted farthest-first with nulls last, and
  walked until a navigation-mesh edge faces away from the player, with a
  mirrored retry;
- the enemy's reaction to sight events: one hide coroutine at a time;
- the line-of-sight sensor (`OnRangeChecker`): a view-cone test, then a ray
  whose first hit must be named "Player", run on trigger enter and then by a
  retrying probe coroutine;
- the session (`GameManager`): the pause, running and end flags, the
  stopwatch, `Time.timeScale`, the countdown before a round starts, and the
  `mm\:ss\:ff` timer text;
- the menus (`UIController`): a one-step screen history, the end screen's
  cached time label, saving a result, and the leaderboard's ordering, rows
  and reset;
- the player input (`PlayerController`): the escape key, the buffered jump
  and roll requests, the turn guard, the move input and the speed bound.

Modules:

- `Optional` (optional.dfy)
- `Digits` (text.dfy): decimal digits and two-digit padding
- `Sorting` (sorting.dfy): a generic stable insertion sort with
  sortedness, permutation and stability proofs
- `TimeSpans` (timespan.dfy): .NET TimeSpan ticks, truncating division
  and the custom format
- `CoverPlanner` (cover_planner.dfy)
- `Entities` (entities.dfy): sight events
- `EnemyMovement` (enemy_movement.dfy)
- `LineOfSight` (line_of_sight.dfy)
- `GameSession` (game_session.dfy)
- `Menus` (menus.dfy)
- `GameWiring` (game_wiring.dfy): handlers that cross components, such as
  the escape key, the end of a round and the menu buttons. The back
  buttons live here too, because returning to the main menu also sets
  `Time.timeScale`
- `PlayerControl` (player_control.dfy)

How the engine is represented:

- Coroutines are explicit handles in a set of running tasks.
- Physics queries and navigation-mesh lookups are given answers.
- Time passing is an explicit number of ticks.
- `Random.Range` takes its draw as a parameter.
- The `PlayerPrefs` JSON store is an `Option<seq<ResultEntry>>`. `None`
  stands for an empty or missing entry, which deserialises to null.
- Scene loads are recorded as requests.

Behaviour of the code that is easy to miss:

- The sensor accepts any ray hit named "Player". It does not check that the
  hit is the object that entered.
- A failed edge lookup is logged, and the facing test still runs on the hit
  it left. It does not skip the candidate.
- The countdown ends on the sign of the millisecond field, not of the
  remaining time.

## Model

| member | source | states |
|---|---|---|
| CoverPlanner.Cleared | Assets/Scripts/EnemyMovement.cs:74-77 | every one of the ten slots is null after the clearing loop |
| CoverPlanner.Overlap | Assets/Scripts/EnemyMovement.cs:79 | the query keeps the buffer length and reports at most as many hits as the buffer has slots |
| CoverPlanner.ScanOfClearedBuffer | Assets/Scripts/EnemyMovement.cs:31 | after clearing, the scan holds exactly the first min(found, 10) colliders found, then nulls; extra colliders are dropped |
| CoverPlanner.Filter | Assets/Scripts/EnemyMovement.cs:82-100 | slot i < hits is nulled iff its distance to the target is below the minimum or its alignment exceeds cos(AngleToPlayer); other slots are untouched; hits drops by exactly the number nulled, as does the count of non-null slots |
| CoverPlanner.Compare | Assets/Scripts/EnemyMovement.cs:150-168 | returns -1, 0 or 1; negative iff a is non-null and b is null or nearer; positive iff b is non-null and a is null or nearer; two nulls compare equal |
| CoverPlanner.ComparerIsValid | Assets/Scripts/EnemyMovement.cs:150-168 | the comparer is reflexive, antisymmetric and transitive, and its "at most" relation is a total preorder |
| CoverPlanner.SortBuffer | Assets/Scripts/EnemyMovement.cs:102 | the sorted buffer is a permutation of the filtered one and is ordered by the comparer |
| CoverPlanner.SortedIsNonNullPrefix | Assets/Scripts/EnemyMovement.cs:150-160 | a buffer ordered by the comparer holds its non-null slots first and its nulls after them |
| CoverPlanner.SomeCountMultiset | Assets/Scripts/EnemyMovement.cs:100-102 | the number of non-null slots is the length minus the null multiplicity, so a permutation keeps it |
| CoverPlanner.TryCandidate | Assets/Scripts/EnemyMovement.cs:106-141 | mirror tried iff the first snap succeeded and failed the facing test; the spot chosen is the first point that faces away; a missed snap is logged with the collider; each failed edge lookup is logged but the facing test still runs |
| CoverPlanner.Logs | Assets/Scripts/EnemyMovement.cs:110-140 | each diagnostic becomes one log effect, in order |
| CoverPlanner.LogsSetNoDestination | Assets/Scripts/EnemyMovement.cs:110-140 | logging never sets a destination |
| CoverPlanner.Walk | Assets/Scripts/EnemyMovement.cs:104-142 | the chosen slot is the first among [0, hits) whose attempt yields a spot; none is chosen iff no slot yields one; exactly one destination is set iff a slot is chosen, and it is the last effect |
| CoverPlanner.HideCycle | Assets/Scripts/EnemyMovement.cs:74-142 | one cycle: remaining = survivors among the first min(found, 10); slots [0, remaining) hold exactly the survivors in non-increasing distance, nulls after; selection is first-match; at most one destination |
| CoverPlanner.SortedSurvivors | Assets/Scripts/EnemyMovement.cs:100-104 | after sorting the filtered buffer, its first remaining slots are exactly the surviving colliders, ordered by non-increasing distance |
| CoverPlanner.SurvivorsAreAccepted | Assets/Scripts/EnemyMovement.cs:92-102 | every collider left in the first remaining slots after the sort passed the filter and came from the scan |
| CoverPlanner.AcceptedSurvive | Assets/Scripts/EnemyMovement.cs:92-102 | every scanned collider that passed the filter is among the first remaining slots after the sort |
| CoverPlanner.SurvivorsByDistance | Assets/Scripts/EnemyMovement.cs:150-168 | the colliders in the first remaining slots run from farthest to nearest |
| EnemyMovement.HandleGainSight | Assets/Scripts/EnemyMovement.cs:48-56 | Player becomes the target; the stored task is stopped before a fresh one starts, so exactly one task runs, for that target |
| EnemyMovement.HandleLoseSight | Assets/Scripts/EnemyMovement.cs:58-65 | Player becomes null and the stored task is stopped, so no task runs |
| EnemyMovement.React | Assets/Scripts/EnemyMovement.cs:39-40 | entering range makes the object the player with a hide task aimed at it; leaving range forgets the player and only stops tasks; a valid enemy stays valid with exactly one task after an enter and none after an exit |
| EnemyMovement.ValidMeansAtMostOne | Assets/Scripts/EnemyMovement.cs:30 | with one stored handle, at most one hide task runs |
| EnemyMovement.InitValid | Assets/Scripts/EnemyMovement.cs:30 | the enemy starts with no task running |
| EnemyMovement.DeliverKeepsOneTask | Assets/Scripts/EnemyMovement.cs:48-65 | any sequence of sight events keeps at most one running task, and it tracks the current Player |
| EnemyMovement.GainThenLoseCancels | Assets/Scripts/EnemyMovement.cs:48-65 | gaining then losing sight leaves no task and no Player |
| EnemyMovement.RetriggerReplaces | Assets/Scripts/EnemyMovement.cs:48-56 | gaining sight twice leaves exactly one task, for the second target |
| LineOfSight.CheckLineOfSight | Assets/Scripts/OnRangeChecker.cs:49-67 | outside the cone: false, no ray, no event; true iff in the cone and the first hit is named "Player"; the ray starts at height 1.5 with the sensor radius as its length; OnRangeEnter is raised exactly once iff true |
| LineOfSight.OnTriggerEnter | Assets/Scripts/OnRangeChecker.cs:32-38 | a successful check starts nothing and raises OnRangeEnter; a failed one starts a probe with a fresh handle and overwrites the stored handle without stopping earlier probes |
| LineOfSight.InitValid | Assets/Scripts/OnRangeChecker.cs:25 | the sensor starts with no probe stored or running, which satisfies the handle invariant |
| LineOfSight.OnTriggerExit | Assets/Scripts/OnRangeChecker.cs:40-47 | always raises OnRangeExit, then stops only the stored probe; the handle invariant is kept |
| LineOfSight.OverwrittenProbeOutlivesExit | Assets/Scripts/OnRangeChecker.cs:36 | after two failed enters, the first probe survives the exit |
| LineOfSight.ProbeStep | Assets/Scripts/OnRangeChecker.cs:71-74 | a stopped probe does nothing; one loop iteration leaves the stored handle alone, only ever stops probes, and keeps the handle invariant |
| LineOfSight.RunProbe | Assets/Scripts/OnRangeChecker.cs:69-75 | running the probe loop leaves the stored handle alone, only ever stops probes, and keeps the handle invariant |
| LineOfSight.FirstSeen | Assets/Scripts/OnRangeChecker.cs:71 | the index of the first view in which the target is visible, with none visible before it |
| LineOfSight.ProbeEndsAtFirstSuccess | Assets/Scripts/OnRangeChecker.cs:69-75 | a running probe makes k + 1 checks and stops after raising OnRangeEnter once, where k is the first successful check; if none succeeds it checks every view, raises nothing and keeps running |
| TimeSpans.Quot | Assets/Scripts/GameManager.cs:58 | C#'s integer division, truncating toward zero |
| TimeSpans.QuotTruncates | Assets/Scripts/GameManager.cs:58 | the quotient rounds toward zero: its magnitude is the number of whole divisors in the dividend's magnitude, and it carries the dividend's sign |
| TimeSpans.Rem | Assets/Scripts/GameManager.cs:58 | C#'s remainder, which takes the sign of the dividend |
| TimeSpans.Milliseconds | Assets/Scripts/GameManager.cs:64 | the TimeSpan millisecond field lies in (-1000, 1000) and is negative iff the time is negative with a non-zero millisecond part |
| TimeSpans.ClockOf | Assets/Scripts/GameManager.cs:58 | the minute, second and hundredth fields of a time are each in range |
| TimeSpans.Format | Assets/Scripts/GameManager.cs:58 | the text is eight characters, two-digit fields separated by ':' at positions 2 and 5 |
| TimeSpans.ParseInRange | Assets/Scripts/GameManager.cs:58 | a clock read back from any text has its fields in range |
| TimeSpans.ParseRender | Assets/Scripts/GameManager.cs:58 | rendering a clock and parsing it back gives the clock |
| TimeSpans.RenderParse | Assets/Scripts/GameManager.cs:58 | any text that parses reads back to a clock in range, and is exactly that clock's rendering |
| TimeSpans.ParseFormat | Assets/Scripts/GameManager.cs:58 | the timer text of a time reads back to that time's minutes, seconds and hundredths |
| TimeSpans.ClockSplitsTheHour | Assets/Scripts/GameManager.cs:58 | minutes, seconds and hundredths recombine to the time within the hour, truncated to hundredths |
| TimeSpans.FormatDropsSign | Assets/Scripts/GameManager.cs:75 | a negative time is shown exactly like its absolute value |
| TimeSpans.FormatDropsHours | Assets/Scripts/GameManager.cs:58 | adding a whole hour to a non-negative time does not change the text |
| TimeSpans.ClockDeterminedByHour | Assets/Scripts/GameManager.cs:58 | two times whose absolute values agree modulo an hour show the same fields |
| TimeSpans.WholeSecondOvershootHasNoNegativeMilliseconds | Assets/Scripts/GameManager.cs:63-64 | minus one second has millisecond field 0 |
| Digits.Pad2RoundTrip | Assets/Scripts/GameManager.cs:58 | a two-digit field reads back to its value |
| Digits.NatToStringRoundTrip | Assets/Scripts/UIController.cs:174 | the decimal text of a rank reads back to the rank |
| Sorting.Sort | Assets/Scripts/UIController.cs:145 | the sorted list is a permutation of the input |
| Sorting.SortSorted | Assets/Scripts/UIController.cs:145 | the sorted list is ordered by any total preorder |
| Sorting.SortStable | Assets/Scripts/UIController.cs:145 | entries that tie keep their input order |
| GameSession.Advance | Assets/Scripts/GameManager.cs:58-63 | the `Elapsed` that a frame reads grows only while the stopwatch runs, by the ticks that passed |
| GameSession.RandomIndex | Assets/Scripts/GameManager.cs:90-91 | the drawn index is below a non-zero count, and 0 for an empty list |
| GameSession.StartGame | Assets/Scripts/GameManager.cs:84-96 | requires non-empty spawn lists; afterwards not paused, not ended, not running, stopwatch restarted and running, time scale 0, spawn indices in range; result and countdown kept |
| GameSession.RestartGame | Assets/Scripts/GameManager.cs:98-102 | ends in the StartGame state and keeps the result |
| GameSession.UserPauseOnOff | Assets/Scripts/GameManager.cs:115-140 | flips the pause flag; the stopwatch runs iff not paused; pausing sets time scale 0; unpausing sets 1 only when running and otherwise leaves it; other flags kept; consistency preserved |
| GameSession.PauseGame | Assets/Scripts/GameManager.cs:132-135 | time scale 0; the pause, end and running flags, the stopwatch, the result and the countdown are untouched |
| GameSession.UnpauseGame | Assets/Scripts/GameManager.cs:137-140 | time scale 1; the pause, end and running flags, the stopwatch, the result and the countdown are untouched |
| GameSession.Remaining | Assets/Scripts/GameManager.cs:62-63 | the remaining time and the measured time add up to the countdown; it is negative iff the countdown is overrun; its millisecond field is negative only after at least a whole millisecond of overrun |
| GameSession.PauseTwiceRestores | Assets/Scripts/GameManager.cs:115-130 | two toggles restore a consistent session exactly |
| GameSession.EndRound | Assets/Scripts/GameManager.cs:104-110 | sets the end flag, flips the pause flag, and records the elapsed time at the stop as the result |
| GameSession.Update | Assets/Scripts/GameManager.cs:55-81 | while running, shows the stopwatch; while counting down, starts iff the millisecond field of the remaining time is negative, then sets running, time scale 1, restarts the stopwatch and plays the start sound in white; otherwise shows the remaining time in red |
| GameSession.NoStartBeforeCountdownExpires | Assets/Scripts/GameManager.cs:60-76 | while the running stopwatch has measured no more than the countdown, a fresh round stays in the red countdown and does not start |
| GameSession.PauseFreezesCountdown | Assets/Scripts/GameManager.cs:115-130 | a paused, consistent session's stopwatch is stopped, so a pause of any length leaves the next frame unchanged |
| GameSession.UpdateKeepsConsistency | Assets/Scripts/GameManager.cs:60-77 | an unpaused consistent session stays consistent through a frame |
| GameSession.WholeSecondOverrunDoesNotStart | Assets/Scripts/GameManager.cs:62-75 | a countdown overrun by exactly one second does not start the round, and the timer shows "00:01:00" |
| GameSession.PausedOverrunBreaksConsistency | Assets/Scripts/GameManager.cs:60-71 | a frame drawn while paused after the countdown overran starts time although the game is paused |
| Menus.HideUI | Assets/Scripts/UIController.cs:117-120 | detaches the document and leaves the screen history alone |
| Menus.Ranked | Assets/Scripts/UIController.cs:142-145 | nothing is listed when nothing is stored; otherwise a permutation of the stored list in ascending time order |
| Menus.RankedIsStable | Assets/Scripts/UIController.cs:145 | results with equal times keep their saved order |
| Menus.EndGameLabel | Assets/Scripts/UIController.cs:221-223 | the label shows the text if non-empty, otherwise the cached time; the cache changes only for non-empty text |
| Menus.Show | Assets/Scripts/UIController.cs:122-136 | previous becomes the old current and current the new screen; only the end screen touches the label and cache; only the leaderboard reloads the list |
| Menus.Back | Assets/Scripts/UIController.cs:464-469 | nothing changes on the main menu; otherwise the previous screen and the current one swap |
| Menus.SettingsBackButtonClicked | Assets/Scripts/UIController.cs:454-457 | always shows the previous screen |
| GameWiring.Back | Assets/Scripts/UIController.cs:464-469 | the menu moves as Menus.Back says; landing on the main menu sets the time scale to 1 (UIController.cs:250) even while paused, and otherwise the session is untouched |
| GameWiring.SettingsBackButtonClicked | Assets/Scripts/UIController.cs:454-457 | the menu moves as Menus.SettingsBackButtonClicked says; going back to the main menu sets the time scale to 1, other screens leave the session alone |
| GameWiring.EscapeThenBackUnfreezes | Assets/Scripts/UIController.cs:248-251 | escape from the main menu during a running round and then Back leaves the game paused with time running at scale 1, which breaks the pause invariant |
| Menus.BackTwice | Assets/Scripts/UIController.cs:464-469 | two Backs from a screen other than the main menu return to the start, unless the first lands on the main menu |
| Menus.SavedName | Assets/Scripts/UIController.cs:235 | the saved name is "Anonymous" iff the field holds the placeholder or "Anonymous"; any other field is saved as typed |
| Menus.SaveResult | Assets/Scripts/UIController.cs:232-246 | appends exactly one entry with the saved name and the result after the stored entries, which keep their order; a missing list becomes one entry |
| Menus.ResetBoard | Assets/Scripts/UIController.cs:183-188 | after a reset the leaderboard lists no rows |
| Menus.Rows | Assets/Scripts/UIController.cs:171-176 | one row per listed entry, labelled with its rank and name and its formatted time |
| Menus.RankLabelReadsBack | Assets/Scripts/UIController.cs:174 | row i's label reads back to rank i + 1 and exactly the entry's name |
| GameWiring.ShowScreen | Assets/Scripts/UIController.cs:248-251 | showing the main menu sets the time scale to 1; other screens leave the session alone |
| GameWiring.EndGame | Assets/Scripts/GameManager.cs:104-113 | ends the round with the elapsed time as the result and shows the end screen, whose label and cache hold that time's text, which reads back to the time's fields |
| GameWiring.Caught | Assets/Scripts/CatchNotifier.cs:8-11 | anything touching the catch trigger ends the round on the end screen |
| GameWiring.EscapeBranch | Assets/Scripts/PlayerController.cs:85-94 | unpaused: shows the game menu, then pauses; paused: hides the menus, then unpauses |
| GameWiring.OnEscape | Assets/Scripts/PlayerController.cs:77-95 | during a round escape flips the pause flag: pausing shows the game menu, resuming hides the menus. After the end the two toggles cancel: the pause flag is kept, the play scene is requested, and the game menu is shown only if the game was paused. The round's end and result and the saved name never change |
| GameWiring.EscapeAfterEnd | Assets/Scripts/PlayerController.cs:79-89 | escape on the end screen of a round caught while running leaves the game paused behind the game menu with the play scene requested |
| GameWiring.RestartButtonClicked | Assets/Scripts/UIController.cs:447-452 | hides the menus, toggles the pause and restarts, ending in the StartGame state |
| GameWiring.RestartEndButtonClicked | Assets/Scripts/UIController.cs:225-227 | restarts, then saves the result the round ended with |
| GameWiring.ExitEndButtonClicked | Assets/Scripts/UIController.cs:228-229 | toggles the pause, requests the menu scene, saves the result |
| GameWiring.ResumeButtonClicked | Assets/Scripts/UIController.cs:200 | hides the menus and toggles the pause |
| GameWiring.EscapeOnGameMenuIsResume | Assets/Scripts/PlayerController.cs:90-94 | escape while paused, before the end, does what the resume button does |
| GameWiring.PauseThenResumeRestores | Assets/Scripts/UIController.cs:200 | pausing with escape and resuming with the button restores the session |
| GameWiring.ExitGameButtonClicked | Assets/Scripts/UIController.cs:209 | toggles the pause and requests the menu scene |
| GameWiring.ResetButtonClicked | Assets/Scripts/UIController.cs:183-188 | clears the store and lists no rows, without moving the screen history |
| PlayerControl.OnJump | Assets/Scripts/PlayerController.cs:67-70 | records a jump request and leaves the roll request |
| PlayerControl.OnRoll | Assets/Scripts/PlayerController.cs:72-75 | records a roll request and leaves the jump request |
| PlayerControl.Clamp01 | Assets/Scripts/PlayerController.cs:119 | the clamped parameter is in [0, 1] and unchanged when already there |
| PlayerControl.Lerp | Assets/Scripts/PlayerController.cs:119 | the interpolated value lies between its two ends |
| PlayerControl.Move | Assets/Scripts/PlayerController.cs:97-123 | roll consumed, with trigger, iff requested and not in "Grab Jump"; in "Grab Jump" the step returns early, keeps the jump request and applies no speed; otherwise jump consumed iff requested and not in "Jump"; speed within [min, max] |
| PlayerControl.RollWaitsOutGrabJump | Assets/Scripts/PlayerController.cs:99-109 | a roll requested during "Grab Jump" is kept and consumed on a later step |
| PlayerControl.JumpWaitsForFreeAnimator | Assets/Scripts/PlayerController.cs:106-117 | a jump pressed during "Grab Jump" or "Jump" waits, and is consumed on the first step in neither state |
| PlayerControl.Turns | Assets/Scripts/PlayerController.cs:52 | Unity's tolerant `== Vector3.zero`: a zero input never turns the player; one with a component of size at least 1e-5 always does |
| PlayerControl.TinyInputDoesNotTurn | Assets/Scripts/PlayerController.cs:52 | a non-zero input within Unity's tolerance, such as (1e-6, 0, 0), does not turn the player |
| PlayerControl.OnMove | Assets/Scripts/PlayerController.cs:57-65 | ignored on Android; otherwise the stick's (x, y) becomes (x, 0, y) |
| PlayerControl.MoveThenLook | Assets/Scripts/PlayerController.cs:52-64 | off Android, the player turns after a move input iff the stick's squared deflection reaches (1e-5)^2: never when centred, always when an axis is at least 1e-5 off centre |

## Left out

- GameSession.StartGame: requires non-empty spawn lists. With an empty
  list the source's index at GameManager.cs:90-91 throws
  `ArgumentOutOfRangeException`, and that exception is not modelled.
- Physics and navigation-mesh queries: `OverlapSphereNonAlloc`,
  `Raycast`, `SamplePosition` and `FindClosestEdge` are given answers, not
  geometry.
- Vector arithmetic: distances, dot products, normalisation and the
  isometric rotation (`Helpers.ToIso`) are given reals or left out. They
  are floating-point engine math.
- Coroutine scheduling and `WaitForSeconds`: the probe and hide loops are
  stepped explicitly, and the 0.5 s and UpdateFrequency waits are not timed.
- The `d` and `a` counters in the hide loop: they are debug counters that
  feed only a commented-out log line.
- Click sounds, styling, element queries, the `makeItem` and `bindItem`
  wiring, platform-specific layouts and `OnEnable`.
- Input rebinding, resolution and volume settings: engine and Input System
  calls with log and pow conversions.
- JSON serialisation and `PlayerPrefs`: the store is an optional list.
  A malformed stored string is not modelled.
- `PlayerController.Reset` (animator trigger reset), the enemy's animator
  velocity, `LightFlash`, `RotateScript`, `CameraMovementScript`,
  `OnPCHide` and the pixelate renderer feature: cosmetic engine calls.
- Rigidbody velocity and the animator's velocity parameter: `Move` reports
  only the speed it would apply.
- Floating-point rounding, NaN and infinities: reals are exact.
- CoverPlanner.SortBuffer: the source's `Array.Sort` is unstable. The model
  sorts stably, so ties in distance may come out in another order in the
  source. Sortedness and permutation are all the source promises.
- CoverPlanner.HideCycle: one distance per obstacle serves both the filter
  (distance to the target) and the sort (distance to `Player`). The two are
  the same object while a cycle runs, as EnemyMovement.DeliverKeepsOneTask
  shows.
- TimeSpans.Format: the hours and days of a time are dropped as in the
  format, and times are whole ticks.
- PlayerControl.Move: the speed bound is stated for `_minSpeed <= _maxSpeed`,
  the configured order.

=== FILE: cover_planner.dfy ===
/**
 One pass of the enemy's hide loop (`EnemyMovement.Hide`): clear the
 ten-slot collider buffer, fill it from a sphere-overlap query, null out
 obstacles that make poor cover, sort the buffer farthest-from-target first
 with null slots last, and walk the survivors until one yields a navigation
 mesh edge whose normal faces away from the target.

 Geometry is not computed here: each obstacle arrives with its distance to
 the target, its alignment with the direction to the target, and the
 answers the navigation mesh gives for the two points tried beside it.
 */
module CoverPlanner {
  import opened Optional
  import Sorting

  /** A world-space position; the planner only passes positions along. */
  datatype Point = Point(x: real, y: real, z: real)

  /**
   What `NavMesh.FindClosestEdge` wrote into its hit: the edge position and
   the dot product of the edge normal with the direction to the target.
   */
  datatype EdgeHit = EdgeHit(position: Point, facing: real)

  /** The edge lookup's return value together with the hit it wrote. */
  datatype EdgeLookup = EdgeLookup(found: bool, hit: EdgeHit)

  /**
   The navigation mesh's answers for one point tried beside an obstacle:
   the snapped point from `NavMesh.SamplePosition` (`None` when nothing
   navigable lies within twice the agent's height) and the edge lookup
   made from it.
   */
  datatype Side = Side(snap: Option<Point>, edge: EdgeLookup)

  datatype Candidate = Candidate(
    id: nat,           // names the collider in diagnostics
    distance: real,    // distance from the obstacle to the target
    alignment: real,   // dot(direction to obstacle, direction to target), both from the agent
    near: Side,        // the point offset away from the target
    far: Side          // the mirrored point on the other side of the obstacle
  )

  /** The reused collider array; `None` is a null slot. */
  type Buffer = seq<Option<Candidate>>

  /** Length of the collider array. */
  const Capacity: nat := 10

  /**
   Designer settings. `cosAngleToPlayer` is cos(AngleToPlayer) with the
   angle in degrees (default 30); MinPlayerDistance defaults to 5 and
   HideSensitivity to 0.
   */
  datatype Config = Config(minPlayerDistance: real, cosAngleToPlayer: real, hideSensitivity: real)

  /** A diagnostic written with `Debug.LogError`. */
  datatype Diagnostic =
    | NoNavMeshNear(candidate: nat)
    | NoEdgeNear(position: Point, secondAttempt: bool)

  /** What one cycle does to the outside world, in order. */
  datatype Effect = Log(diagnostic: Diagnostic) | SetDestination(destination: Point)

  function Min(a: nat, b: nat): nat {
    if a <= b then a else b
  }

  // ---------------------------------------------------------------- buffer

  /** The buffer after the clearing loop. */
  function Cleared(): (b: Buffer)
    ensures |b| == Capacity
    ensures forall i :: 0 <= i < |b| ==> b[i].None?
  {
    seq(Capacity, _ => None)
  }

  datatype Scan = Scan(buffer: Buffer, hits: nat)

  /**
   `Physics.OverlapSphereNonAlloc`: the engine stores as many of the
   overlapping colliders `found` as fit, in its own order, and returns how
   many it stored; slots past that keep what they held.
   */
  function Overlap(buffer: Buffer, found: seq<Candidate>): (s: Scan)
    ensures |s.buffer| == |buffer| && s.hits <= |buffer|
  {
    var n := Min(|buffer|, |found|);
    Scan(seq(|buffer|, i requires 0 <= i < |buffer| => if i < n then Some(found[i]) else buffer[i]), n)
  }

  /** Slots `[0, n)` hold colliders and every later slot is null. */
  ghost predicate NonNullPrefix(b: Buffer, n: nat) {
    && n <= |b|
    && (forall i :: 0 <= i < n ==> b[i].Some?)
    && (forall i :: n <= i < |b| ==> b[i].None?)
  }

  /**
   Clearing first is what makes the scan exact: after it the buffer holds
   the first ten colliders found and nothing else, and any further
   colliders are dropped.
   */
  lemma ScanOfClearedBuffer(found: seq<Candidate>)
    ensures var s := Overlap(Cleared(), found);
            && s.hits == Min(|found|, Capacity)
            && NonNullPrefix(s.buffer, s.hits)
            && forall i :: 0 <= i < s.hits ==> s.buffer[i] == Some(found[i])
  {
  }

  /** The number of non-null slots. */
  function SomeCount(b: Buffer): (n: nat)
    ensures n <= |b|
  {
    if |b| == 0 then 0 else (if b[0].Some? then 1 else 0) + SomeCount(b[1..])
  }

  lemma {:induction false} SomeCountMultiset(b: Buffer)
    ensures SomeCount(b) == |b| - multiset(b)[None]
  {
    if |b| > 0 {
      SomeCountMultiset(b[1..]);
      assert b == [b[0]] + b[1..];
      assert multiset(b) == multiset{b[0]} + multiset(b[1..]);
    }
  }

  /** Nulling one occupied slot lowers the count by exactly one. */
  lemma {:induction false} SomeCountClearSlot(b: Buffer, i: nat)
    requires i < |b| && b[i].Some?
    ensures SomeCount(b[i := None]) == SomeCount(b) - 1
  {
    if i > 0 {
      SomeCountClearSlot(b[1..], i - 1);
      assert b[i := None][1..] == b[1..][i - 1 := None];
    } else {
      assert b[i := None][1..] == b[1..];
    }
  }

  lemma {:induction false} SomeCountOfPrefix(b: Buffer, n: nat)
    requires NonNullPrefix(b, n)
    ensures SomeCount(b) == n
  {
    if |b| > 0 {
      if n == 0 {
        SomeCountOfPrefix(b[1..], 0);
      } else {
        SomeCountOfPrefix(b[1..], n - 1);
      }
    }
  }

  // ---------------------------------------------------------------- filter

  /**
   An obstacle is useless as cover when it is closer to the target than the
   minimum distance, or lies within the configured angle of the line toward
   the target.
   */
  predicate Rejected(c: Candidate, cfg: Config) {
    c.distance < cfg.minPlayerDistance || c.alignment > cfg.cosAngleToPlayer
  }

  /** The number of occupied slots of `b` holding a rejected obstacle. */
  function RejectedCount(b: Buffer, cfg: Config): (n: nat)
    ensures n <= |b|
  {
    if |b| == 0 then 0
    else RejectedCount(b[..|b| - 1], cfg) + (if b[|b| - 1].Some? && Rejected(b[|b| - 1].value, cfg) then 1 else 0)
  }

  /**
   The filtering loop: every rejected obstacle among the first `hits` slots
   is nulled, nothing else changes, and `hits` drops by exactly the number
   of slots nulled.
   */
  method Filter(buffer: Buffer, hits: nat, cfg: Config) returns (out: Buffer, remaining: nat)
    requires hits <= |buffer|
    requires forall i :: 0 <= i < hits ==> buffer[i].Some?
    ensures |out| == |buffer|
    ensures forall i :: 0 <= i < |buffer| ==>
              out[i] == (if i < hits && Rejected(buffer[i].value, cfg) then None else buffer[i])
    ensures remaining == hits - RejectedCount(buffer[..hits], cfg)
    ensures SomeCount(out) == SomeCount(buffer) - RejectedCount(buffer[..hits], cfg)
  {
    out := buffer;
    var reduction: nat := 0;
    for i := 0 to hits
      invariant |out| == |buffer|
      invariant forall j :: 0 <= j < |buffer| ==>
                  out[j] == (if j < i && Rejected(buffer[j].value, cfg) then None else buffer[j])
      invariant reduction == RejectedCount(buffer[..i], cfg) <= i
      invariant SomeCount(out) == SomeCount(buffer) - reduction
    {
      assert buffer[..i + 1][..i] == buffer[..i];
      if Rejected(out[i].value, cfg) {
        SomeCountClearSlot(out, i);
        out := out[i := None];
        reduction := reduction + 1;
      }
    }
    remaining := hits - reduction;
  }

  // ---------------------------------------------------------------- order

  /** `Single.CompareTo`. */
  function CompareReals(x: real, y: real): int {
    if x < y then -1 else if x > y then 1 else 0
  }

  /**
   The comparer handed to `System.Array.Sort`: occupied slots before null
   ones, null slots equal to each other, and occupied slots by decreasing
   distance from the target.
   */
  function Compare(a: Option<Candidate>, b: Option<Candidate>): (r: int)
    ensures r == -1 || r == 0 || r == 1
    ensures r < 0 <==> a.Some? && (b.None? || a.value.distance > b.value.distance)
    ensures r > 0 <==> b.Some? && (a.None? || b.value.distance > a.value.distance)
  {
    if a.None? && b.Some? then 1
    else if a.Some? && b.None? then -1
    else if a.None? && b.None? then 0
    else -CompareReals(a.value.distance, b.value.distance)
  }

  /** "May come first": the order the sorted buffer follows. */
  function AtMost(a: Option<Candidate>, b: Option<Candidate>): bool {
    Compare(a, b) <= 0
  }

  /** The comparer is a valid one: reflexive, antisymmetric and transitive. */
  lemma ComparerIsValid()
    ensures forall a :: Compare(a, a) == 0
    ensures forall a, b :: Compare(a, b) == -Compare(b, a)
    ensures forall a, b, c :: Compare(a, b) <= 0 && Compare(b, c) <= 0 ==> Compare(a, c) <= 0
    ensures forall a, b, c :: Compare(a, b) < 0 && Compare(b, c) < 0 ==> Compare(a, c) < 0
    ensures Sorting.TotalPreorder(AtMost)
  {
  }

  /** The sort of the collider array: a permutation ordered by the comparer. */
  function SortBuffer(b: Buffer): (r: Buffer)
    ensures |r| == |b| && multiset(r) == multiset(b)
    ensures Sorting.SortedBy(AtMost, r)
  {
    ComparerIsValid();
    Sorting.SortSorted(AtMost, b);
    Sorting.Sort(AtMost, b)
  }

  /** In a buffer ordered by the comparer, the occupied slots come first. */
  lemma {:induction false} SortedIsNonNullPrefix(b: Buffer)
    requires Sorting.SortedBy(AtMost, b)
    ensures NonNullPrefix(b, SomeCount(b))
  {
    if |b| > 0 {
      Sorting.SortedTail(AtMost, b);
      SortedIsNonNullPrefix(b[1..]);
      if b[0].None? {
        assert forall j :: 0 < j < |b| ==> AtMost(b[0], b[j]);
        assert SomeCount(b[1..]) == 0;
      }
      assert forall i :: 1 <= i < |b| ==> b[i] == b[1..][i - 1];
    }
  }

  // ---------------------------------------------------------------- search

  /** A destination together with the side of the obstacle it came from. */
  datatype Spot = Spot(position: Point, mirrored: bool)

  /** Everything `Hide` does for one obstacle: diagnostics written, whether the mirrored point was tried, the spot accepted. */
  datatype Attempt = Attempt(log: seq<Diagnostic>, mirrorTried: bool, spot: Option<Spot>)

  /** The side passes the facing test: its snap worked and the edge normal points away from the target. */
  predicate FacesAway(s: Side, sensitivity: real) {
    s.snap.Some? && s.edge.hit.facing < sensitivity
  }

  predicate LogsEdgeMiss(log: seq<Diagnostic>, second: bool) {
    exists i :: 0 <= i < |log| && log[i].NoEdgeNear? && log[i].secondAttempt == second
  }

  /**
   The body of the search loop for one obstacle. A failed snap is logged and
   the obstacle is given up. A failed edge lookup is logged but the facing
   test still runs on the hit the lookup wrote. Only when the first snap
   worked and failed the facing test is the mirrored point tried, with the
   same test.
   */
  function TryCandidate(c: Candidate, sensitivity: real): (a: Attempt)
    ensures a.mirrorTried <==> c.near.snap.Some? && !FacesAway(c.near, sensitivity)
    ensures a.spot == Some(Spot(c.near.edge.hit.position, false)) <==> FacesAway(c.near, sensitivity)
    ensures a.spot == Some(Spot(c.far.edge.hit.position, true)) <==> a.mirrorTried && FacesAway(c.far, sensitivity)
    ensures a.spot.None? <==> !FacesAway(c.near, sensitivity) && !(a.mirrorTried && FacesAway(c.far, sensitivity))
    ensures NoNavMeshNear(c.id) in a.log <==> c.near.snap.None?
    ensures LogsEdgeMiss(a.log, false) <==> c.near.snap.Some? && !c.near.edge.found
    ensures LogsEdgeMiss(a.log, true) <==> a.mirrorTried && c.far.snap.Some? && !c.far.edge.found
  {
    if c.near.snap.None? then
      Attempt([NoNavMeshNear(c.id)], false, None)
    else
      var first := if c.near.edge.found then [] else [NoEdgeNear(c.near.edge.hit.position, false)];
      assert first != [] ==> first[0].NoEdgeNear? && !first[0].secondAttempt;
      if c.near.edge.hit.facing < sensitivity then
        Attempt(first, false, Some(Spot(c.near.edge.hit.position, false)))
      else if c.far.snap.None? then
        Attempt(first, true, None)
      else
        var second := if c.far.edge.found then [] else [NoEdgeNear(c.far.edge.hit.position, true)];
        var log := first + second;
        assert second != [] ==> log[|log| - 1] == second[0];
        assert first != [] ==> log[0] == first[0];
        assert forall i :: 0 <= i < |log| ==> log[i] == (if i < |first| then first[i] else second[i - |first|]);
        if c.far.edge.hit.facing < sensitivity then
          Attempt(log, true, Some(Spot(c.far.edge.hit.position, true)))
        else
          Attempt(log, true, None)
  }

  function Logs(log: seq<Diagnostic>): (effects: seq<Effect>)
    ensures |effects| == |log|
    ensures forall i :: 0 <= i < |log| ==> effects[i] == Log(log[i])
  {
    seq(|log|, i requires 0 <= i < |log| => Log(log[i]))
  }

  /** How many times `Agent.SetDestination` is called in `effects`. */
  function DestinationCount(effects: seq<Effect>): nat {
    if |effects| == 0 then 0
    else DestinationCount(effects[..|effects| - 1]) + (if effects[|effects| - 1].SetDestination? then 1 else 0)
  }

  lemma {:induction false} DestinationCountAppend(a: seq<Effect>, b: seq<Effect>)
    ensures DestinationCount(a + b) == DestinationCount(a) + DestinationCount(b)
  {
    if |b| > 0 {
      assert (a + b)[..|a + b| - 1] == a + b[..|b| - 1];
      DestinationCountAppend(a, b[..|b| - 1]);
    } else {
      assert a + b == a;
    }
  }

  lemma {:induction false} LogsSetNoDestination(log: seq<Diagnostic>)
    ensures DestinationCount(Logs(log)) == 0
  {
    if |log| > 0 {
      assert Logs(log)[..|log| - 1] == Logs(log[..|log| - 1]);
      LogsSetNoDestination(log[..|log| - 1]);
    }
  }

  /**
   The search loop over the first `hits` slots, in buffer order. It stops
   at the first obstacle that yields a spot and calls `SetDestination` once,
   as its last action; when no obstacle yields one it calls it never.
   */
  method Walk(buffer: Buffer, hits: nat, sensitivity: real) returns (effects: seq<Effect>, chosen: Option<nat>)
    requires hits <= |buffer|
    requires forall i :: 0 <= i < hits ==> buffer[i].Some?
    ensures chosen.Some? ==> chosen.value < hits && TryCandidate(buffer[chosen.value].value, sensitivity).spot.Some?
    ensures chosen.Some? ==> forall j :: 0 <= j < chosen.value ==> TryCandidate(buffer[j].value, sensitivity).spot.None?
    ensures chosen.None? ==> forall j :: 0 <= j < hits ==> TryCandidate(buffer[j].value, sensitivity).spot.None?
    ensures DestinationCount(effects) == (if chosen.Some? then 1 else 0)
    ensures chosen.Some? ==> |effects| > 0
    ensures chosen.Some? ==>
              effects[|effects| - 1]
              == SetDestination(TryCandidate(buffer[chosen.value].value, sensitivity).spot.value.position)
  {
    effects := [];
    chosen := None;
    var i := 0;
    while i < hits
      invariant 0 <= i <= hits
      invariant forall j :: 0 <= j < i ==> TryCandidate(buffer[j].value, sensitivity).spot.None?
      invariant DestinationCount(effects) == 0
      invariant chosen.None?
    {
      var attempt := TryCandidate(buffer[i].value, sensitivity);
      LogsSetNoDestination(attempt.log);
      DestinationCountAppend(effects, Logs(attempt.log));
      effects := effects + Logs(attempt.log);
      if attempt.spot.Some? {
        DestinationCountAppend(effects, [SetDestination(attempt.spot.value.position)]);
        effects := effects + [SetDestination(attempt.spot.value.position)];
        chosen := Some(i);
        return;
      }
      i := i + 1;
    }
  }

  // ---------------------------------------------------------------- cycle

  function Wrap(s: seq<Candidate>): (b: Buffer)
    ensures |b| == |s| && forall i :: 0 <= i < |s| ==> b[i] == Some(s[i])
  {
    seq(|s|, i requires 0 <= i < |s| => Some(s[i]))
  }

  /**
   One pass of the hide loop over the colliders the overlap query found, in
   the engine's order: at most the first ten are considered; `remaining` is
   the number considered less the number rejected; the first `remaining`
   slots of the sorted buffer hold exactly the surviving obstacles, farthest
   from the target first, and every later slot is null; the search walks
   those slots in order and sets at most one destination, taken from the
   first obstacle that yields a spot.
   */
  method HideCycle(found: seq<Candidate>, cfg: Config)
    returns (sorted: Buffer, remaining: nat, effects: seq<Effect>, chosen: Option<nat>)
    ensures |sorted| == Capacity
    ensures var n := Min(|found|, Capacity);
            remaining + RejectedCount(Wrap(found[..n]), cfg) == n
    ensures NonNullPrefix(sorted, remaining)
    ensures forall i :: 0 <= i < remaining ==>
              !Rejected(sorted[i].value, cfg) && sorted[i].value in found[..Min(|found|, Capacity)]
    ensures forall j :: 0 <= j < Min(|found|, Capacity) && !Rejected(found[j], cfg) ==>
              Some(found[j]) in sorted[..remaining]
    ensures forall i, j :: 0 <= i < j < remaining ==> sorted[i].value.distance >= sorted[j].value.distance
    ensures chosen.Some? ==>
              && chosen.value < remaining
              && |effects| > 0
              && TryCandidate(sorted[chosen.value].value, cfg.hideSensitivity).spot.Some?
              && (forall j :: 0 <= j < chosen.value ==> TryCandidate(sorted[j].value, cfg.hideSensitivity).spot.None?)
              && effects[|effects| - 1]
                 == SetDestination(TryCandidate(sorted[chosen.value].value, cfg.hideSensitivity).spot.value.position)
    ensures chosen.None? ==> forall j :: 0 <= j < remaining ==> TryCandidate(sorted[j].value, cfg.hideSensitivity).spot.None?
    ensures DestinationCount(effects) == (if chosen.Some? then 1 else 0)
  {
    var n := Min(|found|, Capacity);
    var scan := Overlap(Cleared(), found);
    ScanOfClearedBuffer(found);
    var filtered;
    filtered, remaining := Filter(scan.buffer, scan.hits, cfg);
    assert scan.buffer[..n] == Wrap(found[..n]);
    SomeCountOfPrefix(scan.buffer, n);
    assert forall i :: 0 <= i < Capacity ==>
             filtered[i] == (if i < n && !Rejected(found[i], cfg) then Some(found[i]) else None);
    sorted := SortBuffer(filtered);
    SortedSurvivors(found, cfg, filtered, remaining);
    effects, chosen := Walk(sorted, remaining, cfg.hideSensitivity);
  }

  /** Sorting the filtered buffer puts exactly the survivors first, farthest from the target first. */
  lemma SortedSurvivors(found: seq<Candidate>, cfg: Config, filtered: Buffer, remaining: nat)
    requires |filtered| == Capacity
    requires forall i :: 0 <= i < Capacity ==>
               filtered[i] == (if i < Min(|found|, Capacity) && !Rejected(found[i], cfg) then Some(found[i]) else None)
    requires SomeCount(filtered) == remaining
    ensures var sorted := SortBuffer(filtered);
            && NonNullPrefix(sorted, remaining)
            && (forall i :: 0 <= i < remaining ==>
                  !Rejected(sorted[i].value, cfg) && sorted[i].value in found[..Min(|found|, Capacity)])
            && (forall j :: 0 <= j < Min(|found|, Capacity) && !Rejected(found[j], cfg) ==>
                  Some(found[j]) in sorted[..remaining])
            && (forall i, j :: 0 <= i < j < remaining ==> sorted[i].value.distance >= sorted[j].value.distance)
  {
    var sorted := SortBuffer(filtered);
    SomeCountMultiset(filtered);
    SomeCountMultiset(sorted);
    SortedIsNonNullPrefix(sorted);
    SurvivorsAreAccepted(found, cfg, filtered, sorted, remaining);
    AcceptedSurvive(found, cfg, filtered, sorted, remaining);
    SurvivorsByDistance(sorted, remaining);
  }

  /** Every non-null slot of a permutation of the filtered buffer is an accepted collider from the scan. */
  lemma SurvivorsAreAccepted(found: seq<Candidate>, cfg: Config, filtered: Buffer, sorted: Buffer, remaining: nat)
    requires |filtered| == Capacity
    requires forall i :: 0 <= i < Capacity ==>
               filtered[i] == (if i < Min(|found|, Capacity) && !Rejected(found[i], cfg) then Some(found[i]) else None)
    requires multiset(sorted) == multiset(filtered) && NonNullPrefix(sorted, remaining)
    ensures forall i :: 0 <= i < remaining ==>
              !Rejected(sorted[i].value, cfg) && sorted[i].value in found[..Min(|found|, Capacity)]
  {
    var n := Min(|found|, Capacity);
    forall i | 0 <= i < remaining
      ensures !Rejected(sorted[i].value, cfg) && sorted[i].value in found[..n]
    {
      assert sorted[i] in multiset(filtered);
      var j :| 0 <= j < |filtered| && filtered[j] == sorted[i];
      assert found[..n][j] == found[j];
    }
  }

  /** Every accepted collider from the scan lands in the non-null prefix of a permutation of the filtered buffer. */
  lemma AcceptedSurvive(found: seq<Candidate>, cfg: Config, filtered: Buffer, sorted: Buffer, remaining: nat)
    requires |filtered| == Capacity
    requires forall i :: 0 <= i < Capacity ==>
               filtered[i] == (if i < Min(|found|, Capacity) && !Rejected(found[i], cfg) then Some(found[i]) else None)
    requires multiset(sorted) == multiset(filtered) && NonNullPrefix(sorted, remaining)
    ensures forall j :: 0 <= j < Min(|found|, Capacity) && !Rejected(found[j], cfg) ==>
              Some(found[j]) in sorted[..remaining]
  {
    forall j | 0 <= j < Min(|found|, Capacity) && !Rejected(found[j], cfg)
      ensures Some(found[j]) in sorted[..remaining]
    {
      assert filtered[j] in multiset(sorted);
      var k :| 0 <= k < |sorted| && sorted[k] == filtered[j];
      assert sorted[..remaining][k] == sorted[k];
    }
  }

  /** The non-null prefix of a buffer ordered by the comparer runs by non-increasing distance. */
  lemma SurvivorsByDistance(sorted: Buffer, remaining: nat)
    requires Sorting.SortedBy(AtMost, sorted) && NonNullPrefix(sorted, remaining)
    ensures forall i, j :: 0 <= i < j < remaining ==> sorted[i].value.distance >= sorted[j].value.distance
  {
    forall i, j | 0 <= i < j < remaining
      ensures sorted[i].value.distance >= sorted[j].value.distance
    {
      assert AtMost(sorted[i], sorted[j]);
    }
  }
}

=== FILE: enemy_movement.dfy ===
/**
 The enemy's reaction to the sight events (`EnemyMovement.HandleGainSight`
 and `HandleLoseSight`). The hide coroutine is an explicit task handle:
 starting one allocates a fresh handle and adds it to the running set,
 stopping one removes it.
 */
module EnemyMovement {
  import opened Optional
  import opened Entities

  /** A started `Hide` coroutine and the target it was started for. */
  datatype HideTask = HideTask(handle: nat, target: Target)

  /**
   `player` is the `Player` field; `movement` the stored coroutine handle
   (`MovementCoroutine`), which is never cleared once set; `running` the
   hide coroutines the engine is still stepping.
   */
  datatype Enemy = Enemy(player: Option<Target>, movement: Option<HideTask>, running: set<HideTask>, nextHandle: nat)

  function Init(): Enemy {
    Enemy(None, None, {}, 0)
  }

  /** `StopCoroutine` on the stored handle, when there is one. */
  function StopStored(running: set<HideTask>, stored: Option<HideTask>): set<HideTask> {
    if stored.Some? then running - {stored.value} else running
  }

  /**
   Every running hide task is the stored one and was started for the
   current `Player`. So at most one task runs, and the target a task
   measures distances to is always the `Player` its comparer reads.
   */
  ghost predicate Valid(e: Enemy) {
    forall task :: task in e.running ==> e.movement == Some(task) && e.player == Some(task.target)
  }

  lemma ValidMeansAtMostOne(e: Enemy)
    requires Valid(e)
    ensures |e.running| <= 1
  {
    if e.running != {} {
      var task :| task in e.running;
      assert e.running == {task};
    }
  }

  lemma InitValid()
    ensures Valid(Init()) && Init().running == {}
  {
  }

  /**
   Gaining sight stops the running hide task before starting a new one for
   `t`: afterwards exactly one task runs, and it tracks `t`.
   */
  function HandleGainSight(e: Enemy, t: Target): (r: Enemy)
    ensures r.player == Some(t)
    ensures Valid(e) ==> Valid(r) && r.running == {HideTask(e.nextHandle, t)}
    ensures r.nextHandle > e.nextHandle
  {
    var task := HideTask(e.nextHandle, t);
    Enemy(Some(t), Some(task), StopStored(e.running, e.movement) + {task}, e.nextHandle + 1)
  }

  /** Losing sight stops the hide task and forgets the target; no task runs afterwards. */
  function HandleLoseSight(e: Enemy, t: Target): (r: Enemy)
    ensures r.player.None?
    ensures r.running <= e.running
    ensures Valid(e) ==> Valid(r) && r.running == {}
  {
    e.(player := None, running := StopStored(e.running, e.movement))
  }

  /**
   The enemy's subscriptions to the sight events: entering range makes the
   object the player and leaves one hide task running for it; leaving range
   forgets the player and leaves none.
   */
  function React(e: Enemy, event: SightEvent): (r: Enemy)
    ensures event.RangeEnter? ==> r.player == Some(event.target) && r.movement.Some? && r.movement.value.target == event.target
    ensures event.RangeExit? ==> r.player.None? && r.running <= e.running
    ensures Valid(e) ==> Valid(r) && |r.running| == (if event.RangeEnter? then 1 else 0)
  {
    match event
    case RangeEnter(t) => HandleGainSight(e, t)
    case RangeExit(t) => HandleLoseSight(e, t)
  }

  /** The events applied in order. */
  function Deliver(e: Enemy, events: seq<SightEvent>): Enemy
    decreases |events|
  {
    if |events| == 0 then e else Deliver(React(e, events[0]), events[1..])
  }

  /** Whatever the sensor reports, at most one hide task is ever running. */
  lemma {:induction false} DeliverKeepsOneTask(e: Enemy, events: seq<SightEvent>)
    requires Valid(e)
    ensures Valid(Deliver(e, events))
    ensures |Deliver(e, events).running| <= 1
    decreases |events|
  {
    if |events| > 0 {
      DeliverKeepsOneTask(React(e, events[0]), events[1..]);
    } else {
      ValidMeansAtMostOne(e);
    }
  }

  /** Gaining then losing sight leaves no hide task running, so no destination is set afterwards. */
  lemma GainThenLoseCancels(e: Enemy, t: Target, u: Target)
    requires Valid(e)
    ensures Deliver(e, [RangeEnter(t), RangeExit(u)]).running == {}
    ensures Deliver(e, [RangeEnter(t), RangeExit(u)]).player.None?
  {
    var mid := HandleGainSight(e, t);
    assert [RangeEnter(t), RangeExit(u)][1..] == [RangeExit(u)];
    assert Deliver(e, [RangeEnter(t), RangeExit(u)]) == Deliver(mid, [RangeExit(u)]);
    assert [RangeExit(u)][1..] == [];
    assert Deliver(mid, [RangeExit(u)]) == HandleLoseSight(mid, u);
  }

  /** Re-gaining sight of a new target while a task runs leaves exactly one task, tracking only the new target. */
  lemma RetriggerReplaces(e: Enemy, t: Target, u: Target)
    requires Valid(e)
    ensures var r := Deliver(e, [RangeEnter(t), RangeEnter(u)]);
            exists h :: r.running == {HideTask(h, u)} && r.player == Some(u)
  {
    var mid := HandleGainSight(e, t);
    assert [RangeEnter(t), RangeEnter(u)][1..] == [RangeEnter(u)];
    assert Deliver(e, [RangeEnter(t), RangeEnter(u)]) == Deliver(mid, [RangeEnter(u)]);
    assert [RangeEnter(u)][1..] == [];
    assert Deliver(mid, [RangeEnter(u)]) == HandleGainSight(mid, u);
  }
}

=== FILE: entities.dfy ===
/** Handles shared by the sensor and the enemy. */
module Entities {

  /** A scene object's `Transform`, compared by identity. */
  datatype Target = Target(id: nat)

  /** The events the line-of-sight checker raises, each carrying the object concerned. */
  datatype SightEvent = RangeEnter(target: Target) | RangeExit(target: Target)
}

=== FILE: game_session.dfy ===
/**
 The round's state as `GameManager` keeps it: the pause, running and end
 flags, the stopwatch, the engine's `Time.timeScale`, the recorded result
 and the countdown shown before the round starts. Time passing and the
 random spawn choice are explicit inputs.
 */
module GameSession {
  import opened Optional
  import opened TimeSpans

  /** `System.Diagnostics.Stopwatch`: whether it runs and the ticks it has measured. */
  datatype Stopwatch = Stopwatch(running: bool, elapsed: nat)

  function Restart(w: Stopwatch): Stopwatch {
    Stopwatch(true, 0)
  }

  function Start(w: Stopwatch): Stopwatch {
    w.(running := true)
  }

  function Stop(w: Stopwatch): Stopwatch {
    w.(running := false)
  }

  /** `dt` ticks of wall-clock time pass; only a running stopwatch counts them. */
  function Advance(w: Stopwatch, dt: nat): (r: Stopwatch)
    ensures r.running == w.running
    ensures r.elapsed == if w.running then w.elapsed + dt else w.elapsed
  {
    if w.running then w.(elapsed := w.elapsed + dt) else w
  }

  /** `result` is a TimeSpan in ticks; `preTimer` the countdown in whole seconds. */
  datatype Session = Session(
    isPaused: bool,
    isEnd: bool,
    isRunning: bool,
    watch: Stopwatch,
    timeScale: real,
    result: int,
    preTimer: int)

  const DefaultPreTimer: int := 5

  /** The state every round begins in: counting down, frozen, stopwatch just restarted. */
  predicate Fresh(s: Session) {
    && !s.isPaused && !s.isEnd && !s.isRunning
    && s.watch == Stopwatch(true, 0)
    && s.timeScale == 0.0
  }

  /**
   The pause flag, the stopwatch and the time scale agree: the stopwatch
   runs exactly when the game is not paused, and the world moves exactly
   when the round is running and not paused.
   */
  predicate Consistent(s: Session) {
    && s.watch.running == !s.isPaused
    && s.timeScale == (if s.isRunning && !s.isPaused then 1.0 else 0.0)
  }

  /**
   `Random.Range(0, count)` on integers, with the random source as `draw`:
   an index below `count`, or 0 when `count` is 0.
   */
  function RandomIndex(count: nat, draw: nat): (i: nat)
    ensures count > 0 ==> i < count
    ensures count == 0 ==> i == 0
  {
    if count == 0 then 0 else draw % count
  }

  datatype Spawn = Spawn(player: nat, enemy: nat)

  datatype Started = Started(session: Session, spawn: Spawn)

  /**
   `StartGame`. The spawn lists are indexed with the drawn indices, so both
   must be non-empty. The round begins fresh; the recorded result and the
   countdown length are kept.
   */
  function StartGame(s: Session, playerSpawns: nat, enemySpawns: nat, playerDraw: nat, enemyDraw: nat): (r: Started)
    requires playerSpawns > 0 && enemySpawns > 0
    ensures Fresh(r.session) && Consistent(r.session)
    ensures r.spawn.player < playerSpawns && r.spawn.enemy < enemySpawns
    ensures r.session.result == s.result && r.session.preTimer == s.preTimer
  {
    var watch := Start(Restart(s.watch));
    var spawn := Spawn(RandomIndex(playerSpawns, playerDraw), RandomIndex(enemySpawns, enemyDraw));
    Started(PauseGame(s.(isPaused := false, isEnd := false, isRunning := false, watch := watch)), spawn)
  }

  /** `RestartGame`: resets the player's animator (not modelled), then starts afresh. */
  function RestartGame(s: Session, playerSpawns: nat, enemySpawns: nat, playerDraw: nat, enemyDraw: nat): (r: Started)
    requires playerSpawns > 0 && enemySpawns > 0
    ensures Fresh(r.session) && Consistent(r.session)
    ensures r.session.result == s.result
  {
    StartGame(s, playerSpawns, enemySpawns, playerDraw, enemyDraw)
  }

  /** `PauseGame` freezes time and touches nothing else: the flags and the stopwatch keep their state. */
  function PauseGame(s: Session): (r: Session)
    ensures r.timeScale == 0.0
    ensures r.isPaused == s.isPaused && r.isEnd == s.isEnd && r.isRunning == s.isRunning
    ensures r.watch == s.watch && r.result == s.result && r.preTimer == s.preTimer
  {
    s.(timeScale := 0.0)
  }

  /** `UnpauseGame` lets time run at normal speed and touches nothing else. */
  function UnpauseGame(s: Session): (r: Session)
    ensures r.timeScale == 1.0
    ensures r.isPaused == s.isPaused && r.isEnd == s.isEnd && r.isRunning == s.isRunning
    ensures r.watch == s.watch && r.result == s.result && r.preTimer == s.preTimer
  {
    s.(timeScale := 1.0)
  }

  /**
   `UserPauseOnOff` flips the pause flag; afterwards the stopwatch runs
   exactly when not paused. Pausing freezes time; unpausing restores time
   only in a running round and otherwise leaves the time scale as it was.
   */
  function UserPauseOnOff(s: Session): (r: Session)
    ensures r.isPaused == !s.isPaused
    ensures r.watch.running == !r.isPaused && r.watch.elapsed == s.watch.elapsed
    ensures r.isPaused ==> r.timeScale == 0.0
    ensures !r.isPaused ==> r.timeScale == (if s.isRunning then 1.0 else s.timeScale)
    ensures r.isEnd == s.isEnd && r.isRunning == s.isRunning && r.result == s.result && r.preTimer == s.preTimer
    ensures Consistent(s) ==> Consistent(r)
  {
    if !s.isPaused then
      PauseGame(s.(isPaused := true, watch := Stop(s.watch)))
    else
      var resumed := s.(isPaused := false, watch := Start(s.watch));
      if s.isRunning then UnpauseGame(resumed) else resumed
  }

  /** Pausing twice in a row changes nothing in a consistent session. */
  lemma PauseTwiceRestores(s: Session)
    requires Consistent(s)
    ensures UserPauseOnOff(UserPauseOnOff(s)) == s
  {
  }

  /**
   The session half of `EndGame`: the round is marked ended, the stopwatch
   stopped and the pause toggled, and the result is the time the stopwatch
   had measured when stopped.
   */
  function EndRound(s: Session): (r: Session)
    ensures r.isEnd && r.isPaused == !s.isPaused
    ensures r.result == s.watch.elapsed && r.watch.elapsed == s.watch.elapsed
    ensures r.watch.running == !r.isPaused
    ensures Consistent(s) ==> Consistent(r)
  {
    var toggled := UserPauseOnOff(s.(isEnd := true, watch := Stop(s.watch)));
    toggled.(result := toggled.watch.elapsed)
  }

  /**
   The countdown's remaining time, in ticks: negative exactly when the
   stopwatch has measured more than the countdown. Its millisecond field
   turns negative only after a whole millisecond of overrun, so the round
   never starts on time.
   */
  function Remaining(s: Session): (r: int)
    ensures r + s.watch.elapsed == FromSeconds(s.preTimer)
    ensures r < 0 <==> s.watch.elapsed > FromSeconds(s.preTimer)
    ensures Milliseconds(r) < 0 ==> s.watch.elapsed >= FromSeconds(s.preTimer) + TicksPerMillisecond
  {
    FromSeconds(s.preTimer) - s.watch.elapsed
  }

  datatype Colour = White | Red

  /** One frame of `Update`: the session after it, the timer text, the colour set, whether the start sound plays. */
  datatype Frame = Frame(session: Session, timerText: string, colour: Option<Colour>, startSound: bool)

  /**
   `Update`. In a running round it shows the stopwatch. Before that it
   counts down: the round starts when the millisecond field of the remaining
   time (not the remaining time itself) is negative, which sets the running
   flag, restores time and restarts the stopwatch, while this frame still
   shows the old reading; otherwise the remaining time is shown in red.
   */
  function Update(s: Session): (f: Frame)
    ensures s.isRunning ==> f.session == s && f.timerText == Format(s.watch.elapsed) && f.colour.None?
    ensures !s.isRunning ==>
              (f.session.isRunning <==> Milliseconds(Remaining(s)) < 0)
    ensures !s.isRunning && f.session.isRunning ==>
              && Remaining(s) < 0
              && f.session == s.(isRunning := true, timeScale := 1.0, watch := Stopwatch(true, 0))
              && f.timerText == Format(s.watch.elapsed) && f.colour == Some(White) && f.startSound
    ensures !s.isRunning && !f.session.isRunning ==>
              f.session == s && f.timerText == Format(Remaining(s)) && f.colour == Some(Red) && !f.startSound
  {
    var time := Format(s.watch.elapsed);
    if !s.isRunning then
      var remaining := Remaining(s);
      if Milliseconds(remaining) < 0 then
        var started := UnpauseGame(s.(isRunning := true));
        Frame(started.(watch := Restart(started.watch)), time, Some(White), true)
      else
        Frame(s, Format(remaining), Some(Red), false)
    else
      Frame(s, time, None, false)
  }

  /**
   The countdown cannot end early: once a fresh round's stopwatch has
   measured `dt` ticks, no more than the countdown, the frame still shows
   the countdown in red and the round has not started.
   */
  lemma NoStartBeforeCountdownExpires(s: Session, dt: nat)
    requires Fresh(s) && dt <= FromSeconds(s.preTimer)
    ensures var f := Update(s.(watch := Advance(s.watch, dt)));
            !f.session.isRunning && f.colour == Some(Red)
  {
  }

  /** While paused the stopwatch is stopped, so however long a pause lasts the next frame is the same. */
  lemma PauseFreezesCountdown(s: Session, dt: nat)
    requires Consistent(s) && s.isPaused
    ensures Update(s.(watch := Advance(s.watch, dt))) == Update(s)
  {
  }

  /** An unpaused session stays consistent through a frame. */
  lemma UpdateKeepsConsistency(s: Session)
    requires Consistent(s) && !s.isPaused
    ensures Consistent(Update(s).session)
  {
  }

  /**
   Overrunning the countdown by exactly one second does not start the
   round: the millisecond field is zero, and the timer shows "00:01:00".
   */
  lemma WholeSecondOverrunDoesNotStart()
    ensures var s := Session(false, false, false, Stopwatch(true, FromSeconds(DefaultPreTimer + 1)), 0.0, 0, DefaultPreTimer);
            && !Update(s).session.isRunning
            && Update(s).timerText == "00:01:00"
  {
    var s := Session(false, false, false, Stopwatch(true, FromSeconds(DefaultPreTimer + 1)), 0.0, 0, DefaultPreTimer);
    assert Remaining(s) == -TicksPerSecond;
    assert ClockOf(-TicksPerSecond) == Clock(0, 1, 0);
  }

  /**
   A frame drawn while paused with the countdown overrun starts the round
   anyway: time runs and the stopwatch restarts although the game is paused.
   */
  lemma PausedOverrunBreaksConsistency()
    ensures var s := Session(true, false, false, Stopwatch(false, FromSeconds(DefaultPreTimer) + TicksPerMillisecond + 1), 0.0, 0, DefaultPreTimer);
            && Consistent(s)
            && !Consistent(Update(s).session)
            && Update(s).session.timeScale == 1.0 && Update(s).session.isPaused
  {
    var s := Session(true, false, false, Stopwatch(false, FromSeconds(DefaultPreTimer) + TicksPerMillisecond + 1), 0.0, 0, DefaultPreTimer);
    assert Milliseconds(Remaining(s)) == -1;
  }
}

=== FILE: game_wiring.dfy ===
/**
 The handlers that cross components: ending the round (`GameManager.EndGame`,
 raised by the catch trigger), the escape key (`PlayerController.OnEscape`)
 and the menu buttons that drive the session (`UIController`). The engine's
 `Time.timeScale` lives in the session; scene loads are recorded requests.
 */
module GameWiring {
  import opened Optional
  import opened TimeSpans
  import opened GameSession
  import opened Menus

  const PlayScene: string := "HideAndSeek"
  const MenuScene: string := "Menu"

  /** Spawn list sizes and the random draws `StartGame` consumes. */
  datatype Spawning = Spawning(playerSpawns: nat, enemySpawns: nat, playerDraw: nat, enemyDraw: nat)

  predicate CanSpawn(sp: Spawning) {
    sp.playerSpawns > 0 && sp.enemySpawns > 0
  }

  /** `sceneRequests` lists the `SceneManager.LoadScene` calls made, in order. */
  datatype Game = Game(session: Session, menu: Menu, store: Store, sceneRequests: seq<string>)

  /** `UIController.Show`; the main menu also sets the time scale to 1. */
  function ShowScreen(g: Game, t: Screen, text: string): (r: Game)
    ensures r.menu == Show(g.menu, t, text, g.store)
    ensures t == MainMenu ==> r.session == g.session.(timeScale := 1.0)
    ensures t != MainMenu ==> r.session == g.session
  {
    var session := if t == MainMenu then g.session.(timeScale := 1.0) else g.session;
    g.(session := session, menu := Show(g.menu, t, text, g.store))
  }

  function TogglePause(g: Game): Game {
    g.(session := UserPauseOnOff(g.session))
  }

  /**
   `EndGame`: ends the round, records the stopwatch reading as the result
   and shows the end screen with that time formatted, which the label
   shows and caches.
   */
  function EndGame(g: Game): (r: Game)
    ensures r.session.isEnd && r.session.isPaused == !g.session.isPaused
    ensures r.session.result == g.session.watch.elapsed
    ensures r.menu.current == Screen.EndGame && r.menu.previous == g.menu.current
    ensures r.menu.timeLabel == Format(r.session.result) && r.menu.lastTime == Format(r.session.result)
    ensures Parse(r.menu.timeLabel) == Some(ClockOf(g.session.watch.elapsed))
    ensures Consistent(g.session) ==> Consistent(r.session)
  {
    var ended := g.(session := EndRound(g.session));
    ParseFormat(ended.session.result);
    ShowScreen(ended, Screen.EndGame, Format(ended.session.result))
  }

  /** The catch trigger's only action: whatever touches it ends the round. */
  function Caught(g: Game): (r: Game)
    ensures r.session.isEnd && r.menu.current == Screen.EndGame
    ensures r.session.result == g.session.watch.elapsed
  {
    EndGame(g)
  }

  /** The branch of `OnEscape` taken by the pause flag. */
  function EscapeBranch(g: Game): (r: Game)
    ensures !g.session.isPaused ==> r.menu.current == GameMenu && r.menu.shown && r.session.isPaused
    ensures g.session.isPaused ==> !r.menu.shown && r.menu.current == g.menu.current && !r.session.isPaused
    ensures r.session == UserPauseOnOff(g.session)
    ensures r.store == g.store && r.sceneRequests == g.sceneRequests
  {
    if !g.session.isPaused then TogglePause(ShowScreen(g, GameMenu, ""))
    else TogglePause(g.(menu := HideUI(g.menu)))
  }

  /**
   `OnEscape`: after the round has ended it first toggles the pause once
   more and asks for the play scene to be loaded; then it shows the game
   menu and pauses, or hides the menus and resumes. After the end the two
   toggles cancel: the pause flag is left as it was, and the game menu
   appears only if the game was paused.
   */
  function OnEscape(g: Game): (r: Game)
    ensures !g.session.isEnd ==>
              && r.session.isPaused == !g.session.isPaused
              && r.sceneRequests == g.sceneRequests
              && (!g.session.isPaused ==> r.menu.current == GameMenu && r.menu.shown)
              && (g.session.isPaused ==> !r.menu.shown && r.menu.current == g.menu.current)
    ensures g.session.isEnd ==>
              && r.session.isPaused == g.session.isPaused
              && r.sceneRequests == g.sceneRequests + [PlayScene]
              && (g.session.isPaused ==> r.menu.current == GameMenu && r.menu.shown)
              && (!g.session.isPaused ==> !r.menu.shown && r.menu.current == g.menu.current)
    ensures r.session.isEnd == g.session.isEnd && r.session.result == g.session.result
    ensures r.store == g.store
  {
    var g1 := if g.session.isEnd then TogglePause(g).(sceneRequests := g.sceneRequests + [PlayScene]) else g;
    EscapeBranch(g1)
  }

  /**
   Escape on the end screen of a round caught while running: the extra
   toggle resumes and the normal branch pauses again, so the game ends up
   paused behind the game menu with the play scene requested.
   */
  lemma EscapeAfterEnd(g: Game)
    requires Consistent(g.session) && !g.session.isPaused
    ensures var r := OnEscape(EndGame(g));
            && r.sceneRequests == g.sceneRequests + [PlayScene]
            && r.menu.current == GameMenu
            && r.session.isPaused
            && Consistent(r.session)
  {
  }

  /**
   `RestartButtonClicked`: hides the menus, toggles the pause, restarts;
   whatever the state before, the round starts fresh with no menu shown.
   */
  function RestartButtonClicked(g: Game, sp: Spawning): (r: Game)
    requires CanSpawn(sp)
    ensures Fresh(r.session) && Consistent(r.session) && !r.menu.shown
    ensures r.session.result == g.session.result
    ensures r.store == g.store
  {
    var toggled := TogglePause(g.(menu := HideUI(g.menu)));
    toggled.(session := RestartGame(toggled.session, sp.playerSpawns, sp.enemySpawns, sp.playerDraw, sp.enemyDraw).session)
  }

  /**
   The end screen's restart button: restart, then save the round's result
   under the typed name. Restarting keeps the result, so the saved time is
   the one the round ended with.
   */
  function RestartEndButtonClicked(g: Game, sp: Spawning, field: string): (r: Game)
    requires CanSpawn(sp)
    ensures Fresh(r.session)
    ensures r.store == SaveResult(g.store, field, g.session.result)
  {
    var restarted := RestartButtonClicked(g, sp);
    restarted.(store := SaveResult(restarted.store, field, restarted.session.result))
  }

  /** The end screen's exit button: toggle the pause, ask for the menu scene, save the result. */
  function ExitEndButtonClicked(g: Game, field: string): (r: Game)
    ensures r.sceneRequests == g.sceneRequests + [MenuScene]
    ensures r.store == SaveResult(g.store, field, g.session.result)
    ensures r.session == UserPauseOnOff(g.session)
  {
    var toggled := TogglePause(g);
    toggled.(sceneRequests := toggled.sceneRequests + [MenuScene],
             store := SaveResult(toggled.store, field, toggled.session.result))
  }

  /** The game menu's resume button: hide the menus and toggle the pause. */
  function ResumeButtonClicked(g: Game): (r: Game)
    ensures !r.menu.shown && r.session == UserPauseOnOff(g.session)
  {
    TogglePause(g.(menu := HideUI(g.menu)))
  }

  /** Escape on the game menu and its resume button do the same thing. */
  lemma EscapeOnGameMenuIsResume(g: Game)
    requires g.session.isPaused && !g.session.isEnd
    ensures OnEscape(g) == ResumeButtonClicked(g)
  {
  }

  /** Pausing with escape and resuming with the button gives back a consistent session unchanged. */
  lemma PauseThenResumeRestores(g: Game)
    requires Consistent(g.session) && !g.session.isPaused && !g.session.isEnd
    ensures ResumeButtonClicked(OnEscape(g)).session == g.session
    ensures !ResumeButtonClicked(OnEscape(g)).menu.shown
  {
    PauseTwiceRestores(g.session);
  }

  /**
   `UIController.Back`: nothing on the main menu, otherwise the previous
   screen is shown again, and landing on the main menu sets the time scale
   to 1 whatever the pause flag says.
   */
  function Back(g: Game): (r: Game)
    ensures r.menu == Menus.Back(g.menu, g.store)
    ensures g.menu.current != MainMenu && g.menu.previous == MainMenu ==> r.session == g.session.(timeScale := 1.0)
    ensures g.menu.current == MainMenu || g.menu.previous != MainMenu ==> r.session == g.session
    ensures r.store == g.store && r.sceneRequests == g.sceneRequests
  {
    if g.menu.current == MainMenu then g else ShowScreen(g, g.menu.previous, "")
  }

  /** The back button of the settings and leaderboard screens: the previous screen, with the main menu's time scale. */
  function SettingsBackButtonClicked(g: Game): (r: Game)
    ensures r.menu == Menus.SettingsBackButtonClicked(g.menu, g.store)
    ensures g.menu.previous == MainMenu ==> r.session == g.session.(timeScale := 1.0)
    ensures g.menu.previous != MainMenu ==> r.session == g.session
    ensures r.store == g.store && r.sceneRequests == g.sceneRequests
  {
    ShowScreen(g, g.menu.previous, "")
  }

  /**
   In the play scene the menu starts on the main menu, so the first escape
   records it as the previous screen. Going back then unfreezes time while
   the game stays paused: the world moves behind a paused game.
   */
  lemma EscapeThenBackUnfreezes(g: Game)
    requires Consistent(g.session) && !g.session.isPaused && !g.session.isEnd
    requires g.menu.current == MainMenu
    ensures var r := Back(OnEscape(g));
            && r.session.isPaused && r.session.timeScale == 1.0
            && r.menu.current == MainMenu
            && !Consistent(r.session)
  {
  }

  /** The game menu's exit button: toggle the pause and ask for the menu scene. */
  function ExitGameButtonClicked(g: Game): (r: Game)
    ensures r.sceneRequests == g.sceneRequests + [MenuScene]
    ensures r.session == UserPauseOnOff(g.session)
  {
    TogglePause(g).(sceneRequests := g.sceneRequests + [MenuScene])
  }

  /**
   The leaderboard's reset button: clears the store and sets the
   leaderboard up again directly, not through `Show`, so the screen
   history stays as it was; the list is now empty.
   */
  function ResetButtonClicked(g: Game): (r: Game)
    ensures r.store.None?
    ensures r.menu.current == g.menu.current && r.menu.previous == g.menu.previous && r.menu.shown
    ensures Rows(r.menu.board) == []
    ensures r.session == g.session && r.sceneRequests == g.sceneRequests
  {
    var cleared := ResetBoard(g.store);
    g.(store := cleared, menu := g.menu.(shown := true, board := Ranked(cleared)))
  }
}

=== FILE: line_of_sight.dfy ===
/**
 The enemy's line-of-sight checker (`OnRangeChecker`): a view-cone test
 followed by a ray cast from a fixed eye height, run on trigger enter and
 then by a retrying probe coroutine until it succeeds or the object leaves
 the trigger sphere.

 The engine's answers are inputs: the dot product of the checker's forward
 direction with the direction to the object, and the name of the first
 collider the ray would hit. Coroutines are explicit handles.
 */
module LineOfSight {
  import opened Optional
  import opened Entities

  /** The y coordinate the ray starts from, whatever the checker's own height. */
  const EyeHeight: real := 1.5

  /** The name a ray hit must carry to count as seeing the player. */
  const PlayerName: string := "Player"

  /** `cosHalfFov` is cos(FieldOfView / 2) with the angle in degrees; `radius` is the trigger sphere's. */
  datatype SensorConfig = SensorConfig(cosHalfFov: real, radius: real)

  /** The engine's answers for one check. */
  datatype View = View(alignment: real, firstHit: Option<string>)

  /** The ray `Physics.Raycast` is asked to cast. */
  datatype Ray = Ray(originHeight: real, length: real)

  /** The outcome of one check: its result, the ray it cast, the events it raised. */
  datatype Sighting = Sighting(visible: bool, ray: Option<Ray>, raised: seq<SightEvent>)

  predicate InCone(cfg: SensorConfig, view: View) {
    view.alignment >= cfg.cosHalfFov
  }

  /**
   `CheckLineOfSight`: an object outside the cone is never seen and no ray
   is cast; inside it a ray of the sensor's radius is cast from the eye
   height, and the object is seen exactly when the first collider hit is
   named "Player", in which case `OnRangeEnter` is raised once.
   */
  function CheckLineOfSight(cfg: SensorConfig, target: Target, view: View): (s: Sighting)
    ensures !InCone(cfg, view) ==> !s.visible && s.ray.None? && s.raised == []
    ensures s.visible <==> InCone(cfg, view) && view.firstHit == Some(PlayerName)
    ensures s.ray.Some? <==> InCone(cfg, view)
    ensures s.ray.Some? ==> s.ray.value == Ray(EyeHeight, cfg.radius)
    ensures s.raised == (if s.visible then [RangeEnter(target)] else [])
  {
    if view.alignment >= cfg.cosHalfFov then
      var ray := Ray(EyeHeight, cfg.radius);
      if view.firstHit.Some? && view.firstHit.value == PlayerName then
        Sighting(true, Some(ray), [RangeEnter(target)])
      else
        Sighting(false, Some(ray), [])
    else
      Sighting(false, None, [])
  }

  /** A started `CheckForLineOfSight` coroutine and the object it watches. */
  datatype Probe = Probe(handle: nat, target: Target)

  /**
   `stored` is the `RepeatUntilVisibleCouritne` field, overwritten by each
   new probe and never cleared; `running` holds the probes still stepping.
   */
  datatype Sensor = Sensor(stored: Option<Probe>, running: set<Probe>, nextHandle: nat)

  datatype Step = Step(sensor: Sensor, raised: seq<SightEvent>)

  /** Every running probe has a handle below the next one to be given out. */
  ghost predicate Valid(s: Sensor) {
    forall p :: p in s.running ==> p.handle < s.nextHandle
  }

  /** The sensor before any trigger event: no probe stored or running. */
  function Init(): Sensor {
    Sensor(None, {}, 0)
  }

  lemma InitValid()
    ensures Valid(Init()) && Init().running == {} && Init().stored.None?
  {
  }

  /**
   `OnTriggerEnter`: a successful immediate check raises `OnRangeEnter` and
   starts nothing; a failed one starts a probe and stores its handle,
   without stopping a probe started by an earlier enter.
   */
  function OnTriggerEnter(s: Sensor, cfg: SensorConfig, other: Target, view: View): (r: Step)
    ensures CheckLineOfSight(cfg, other, view).visible ==> r.sensor == s && r.raised == [RangeEnter(other)]
    ensures !CheckLineOfSight(cfg, other, view).visible ==>
              && r.raised == []
              && r.sensor.stored == Some(Probe(s.nextHandle, other))
              && r.sensor.running == s.running + {Probe(s.nextHandle, other)}
    ensures Valid(s) ==> Probe(s.nextHandle, other) !in s.running && Valid(r.sensor)
    ensures s.running <= r.sensor.running
  {
    var check := CheckLineOfSight(cfg, other, view);
    if check.visible then
      Step(s, check.raised)
    else
      var probe := Probe(s.nextHandle, other);
      Step(Sensor(Some(probe), s.running + {probe}, s.nextHandle + 1), check.raised)
  }

  /**
   `OnTriggerExit`: raises `OnRangeExit` first, then stops the stored probe.
   Only that one is stopped: a probe whose handle was overwritten keeps running.
   */
  function OnTriggerExit(s: Sensor, other: Target): (r: Step)
    ensures r.raised == [RangeExit(other)]
    ensures r.sensor.stored == s.stored
    ensures s.stored.Some? ==> r.sensor.running == s.running - {s.stored.value}
    ensures s.stored.None? ==> r.sensor.running == s.running
    ensures Valid(s) ==> Valid(r.sensor)
  {
    var running := if s.stored.Some? then s.running - {s.stored.value} else s.running;
    Step(s.(running := running), [RangeExit(other)])
  }

  /** Two enters that both fail leave the first probe running after the exit. */
  lemma OverwrittenProbeOutlivesExit(s: Sensor, cfg: SensorConfig, a: Target, b: Target, v: View, w: View)
    requires !CheckLineOfSight(cfg, a, v).visible && !CheckLineOfSight(cfg, b, w).visible
    ensures var first := OnTriggerEnter(s, cfg, a, v).sensor;
            var second := OnTriggerEnter(first, cfg, b, w).sensor;
            Probe(s.nextHandle, a) in OnTriggerExit(second, b).sensor.running
  {
  }

  /**
   One iteration of the probe loop for `p`: a probe no longer running does
   nothing; otherwise the check runs, and on success the probe ends after
   raising `OnRangeEnter`, while on failure it waits half a second.
   */
  function ProbeStep(s: Sensor, cfg: SensorConfig, p: Probe, view: View): (r: Step)
    ensures p !in s.running ==> r == Step(s, [])
    ensures r.sensor.stored == s.stored && r.sensor.nextHandle == s.nextHandle
    ensures r.sensor.running <= s.running
    ensures Valid(s) ==> Valid(r.sensor)
  {
    if p !in s.running then Step(s, [])
    else
      var check := CheckLineOfSight(cfg, p.target, view);
      if check.visible then Step(s.(running := s.running - {p}), check.raised)
      else Step(s, [])
  }

  /** The probe stepped through `views`, one per check; `checks` counts the checks it made. */
  datatype ProbeRun = ProbeRun(step: Step, checks: nat)

  function RunProbe(s: Sensor, cfg: SensorConfig, p: Probe, views: seq<View>): (r: ProbeRun)
    ensures r.step.sensor.stored == s.stored && r.step.sensor.nextHandle == s.nextHandle
    ensures r.step.sensor.running <= s.running
    ensures Valid(s) ==> Valid(r.step.sensor)
    decreases |views|
  {
    if |views| == 0 || p !in s.running then ProbeRun(Step(s, []), 0)
    else
      var first := ProbeStep(s, cfg, p, views[0]);
      var rest := RunProbe(first.sensor, cfg, p, views[1..]);
      ProbeRun(Step(rest.step.sensor, first.raised + rest.step.raised), rest.checks + 1)
  }

  /** The index of the first view in which the target is seen, if any. */
  function FirstSeen(cfg: SensorConfig, t: Target, views: seq<View>): (k: Option<nat>)
    ensures k.Some? ==> k.value < |views| && CheckLineOfSight(cfg, t, views[k.value]).visible
    ensures k.Some? ==> forall j :: 0 <= j < k.value ==> !CheckLineOfSight(cfg, t, views[j]).visible
    ensures k.None? ==> forall j :: 0 <= j < |views| ==> !CheckLineOfSight(cfg, t, views[j]).visible
    decreases |views|
  {
    if |views| == 0 then None
    else if CheckLineOfSight(cfg, t, views[0]).visible then Some(0)
    else
      var k := FirstSeen(cfg, t, views[1..]);
      if k.Some? then Some(k.value + 1) else None
  }

  /**
   A running probe ends exactly at its first successful check: it makes
   k + 1 checks, waits k intervals, raises `OnRangeEnter` once and stops;
   while every check fails it keeps running and raises nothing.
   */
  lemma {:induction false} ProbeEndsAtFirstSuccess(s: Sensor, cfg: SensorConfig, p: Probe, views: seq<View>)
    requires p in s.running
    ensures var r := RunProbe(s, cfg, p, views);
            match FirstSeen(cfg, p.target, views)
            case Some(k) =>
              && r.checks == k + 1
              && r.step.raised == [RangeEnter(p.target)]
              && p !in r.step.sensor.running
              && r.step.sensor.running == s.running - {p}
            case None =>
              && r.checks == |views|
              && r.step.raised == []
              && r.step.sensor.running == s.running
    decreases |views|
  {
    if |views| > 0 {
      var first := ProbeStep(s, cfg, p, views[0]);
      if CheckLineOfSight(cfg, p.target, views[0]).visible {
        assert RunProbe(first.sensor, cfg, p, views[1..]).checks == 0;
      } else {
        ProbeEndsAtFirstSuccess(first.sensor, cfg, p, views[1..]);
      }
    }
  }
}

=== FILE: menus.dfy ===
/**
 The menu controller (`UIController`): which screen is shown, the one-step
 history used by the back buttons, the cached end-of-round time, saving a
 result and listing the leaderboard. The saved results are the decoded
 value of the "Data" preference: `None` when it is empty or missing.
 */
module Menus {
  import opened Optional
  import opened Digits
  import opened TimeSpans
  import Sorting

  datatype Screen = MainMenu | Settings | GameMenu | EndGame | Leaderboard

  /** A saved result: a name and a time in ticks. */
  datatype ResultEntry = ResultEntry(name: string, time: int)

  type Store = Option<seq<ResultEntry>>

  /**
   `current` and `previous` are the screen fields; `shown` says whether a
   screen document is attached at all; `lastTime` caches the last time text
   the end screen was given and `timeLabel` is what its label shows;
   `board` is the leaderboard's item source.
   */
  datatype Menu = Menu(
    current: Screen,
    previous: Screen,
    shown: bool,
    lastTime: string,
    timeLabel: string,
    board: Store)

  /** `HideUI`: detaches the document; the screen fields are untouched. */
  function HideUI(m: Menu): (r: Menu)
    ensures !r.shown && r.current == m.current && r.previous == m.previous
  {
    m.(shown := false)
  }

  /** Entries listed earlier or at the same time come first. */
  function NoLaterThan(a: ResultEntry, b: ResultEntry): bool {
    a.time <= b.time
  }

  /** `OrderBy(s => s.time)` on the stored list: nothing to list when nothing is stored. */
  function Ranked(store: Store): (board: Store)
    ensures board.Some? <==> store.Some?
    ensures board.Some? ==> multiset(board.value) == multiset(store.value)
    ensures board.Some? ==> forall i, j :: 0 <= i < j < |board.value| ==> board.value[i].time <= board.value[j].time
  {
    match store
    case None => None
    case Some(list) =>
      Sorting.SortSorted(NoLaterThan, list);
      Some(Sorting.Sort(NoLaterThan, list))
  }

  /** Results with equal times are listed in the order they were saved. */
  lemma RankedIsStable(list: seq<ResultEntry>, k: ResultEntry)
    ensures Sorting.TiesOf(NoLaterThan, Ranked(Some(list)).value, k) == Sorting.TiesOf(NoLaterThan, list, k)
  {
    Sorting.SortStable(NoLaterThan, list, k);
  }

  /** The end screen's label logic: a non-empty text is shown and cached; an empty one shows the cache. */
  function EndGameLabel(lastTime: string, text: string): (r: (string, string))
    ensures r.0 == r.1
    ensures text != "" ==> r.1 == text
    ensures text == "" ==> r.1 == lastTime
  {
    var shownText := if text == "" then lastTime else text;
    var cached := if text != "" then text else lastTime;
    (shownText, cached)
  }

  /**
   `Show(t, text)`: the old current screen becomes the previous one and `t`
   the current one. Only the end screen touches the time label and its
   cache, and only the leaderboard reloads the listed results.
   */
  function Show(m: Menu, t: Screen, text: string, store: Store): (r: Menu)
    ensures r.previous == m.current && r.current == t && r.shown
    ensures t == EndGame ==> r.timeLabel == r.lastTime
    ensures t == EndGame && text != "" ==> r.lastTime == text
    ensures t != EndGame || text == "" ==> r.lastTime == m.lastTime
    ensures t != EndGame ==> r.timeLabel == m.timeLabel
    ensures t == Leaderboard ==> r.board == Ranked(store)
    ensures t != Leaderboard ==> r.board == m.board
  {
    var m1 := m.(previous := m.current, shown := true);
    var m2 := match t
      case EndGame =>
        var shownAndCached := EndGameLabel(m1.lastTime, text);
        m1.(timeLabel := shownAndCached.0, lastTime := shownAndCached.1)
      case Leaderboard => m1.(board := Ranked(store))
      case _ => m1;
    m2.(current := t)
  }

  /** `Back`: nothing on the main menu, otherwise back to the previous screen. */
  function Back(m: Menu, store: Store): (r: Menu)
    ensures m.current == MainMenu ==> r == m
    ensures m.current != MainMenu ==> r.current == m.previous && r.previous == m.current
  {
    if m.current == MainMenu then m else Show(m, m.previous, "", store)
  }

  /** The back button of the settings and leaderboard screens: always to the previous screen. */
  function SettingsBackButtonClicked(m: Menu, store: Store): (r: Menu)
    ensures r.current == m.previous && r.previous == m.current
  {
    Show(m, m.previous, "", store)
  }

  /**
   The history is one step deep: a second `Back` returns to the screen of
   the first one unless that first step landed on the main menu.
   */
  lemma BackTwice(m: Menu, store: Store)
    requires m.current != MainMenu
    ensures m.previous != MainMenu ==>
              Back(Back(m, store), store).current == m.current
              && Back(Back(m, store), store).previous == m.previous
    ensures m.previous == MainMenu ==> Back(Back(m, store), store) == Back(m, store)
  {
  }

  const NamePlaceholder: string := "Enter your name here"
  const AnonymousName: string := "Anonymous"

  /** The name a result is saved under. */
  function SavedName(field: string): (name: string)
    ensures name == AnonymousName <==> field == NamePlaceholder || field == AnonymousName
    ensures field != NamePlaceholder ==> name == field
  {
    if field == NamePlaceholder then AnonymousName else field
  }

  /**
   `SaveResult`: appends one entry after the stored ones, which keep their
   order; a missing list becomes a one-entry list.
   */
  function SaveResult(store: Store, field: string, result: int): (r: Store)
    ensures r.Some? && |r.value| == |store.GetOr([])| + 1
    ensures r.value[..|r.value| - 1] == store.GetOr([])
    ensures r.value[|r.value| - 1] == ResultEntry(SavedName(field), result)
  {
    Some(store.GetOr([]) + [ResultEntry(SavedName(field), result)])
  }

  /** The leaderboard's reset button stores the empty string, which decodes to nothing. */
  function ResetBoard(store: Store): (r: Store)
    ensures Rows(Ranked(r)) == []
  {
    None
  }

  /** The two labels of leaderboard row `i`: rank and name, and the time. */
  datatype Row = Row(rank: string, time: string)

  function RankLabel(i: nat, name: string): string {
    NatToString(i + 1) + ". " + name
  }

  function Rows(board: Store): (rows: seq<Row>)
    ensures |rows| == |board.GetOr([])|
    ensures forall i :: 0 <= i < |rows| ==>
              rows[i] == Row(RankLabel(i, board.value[i].name), Format(board.value[i].time))
  {
    match board
    case None => []
    case Some(list) =>
      seq(|list|, i requires 0 <= i < |list| => Row(RankLabel(i, list[i].name), Format(list[i].time)))
  }

  function DigitRun(s: string): (n: nat)
    ensures n <= |s| && AllDigits(s[..n])
    ensures n < |s| ==> !IsDigit(s[n])
  {
    if |s| > 0 && IsDigit(s[0]) then
      var n := 1 + DigitRun(s[1..]);
      assert forall i :: 1 <= i < n ==> s[..n][i] == s[1..][..n - 1][i - 1];
      n
    else 0
  }

  /** Reads a rank label back into its rank and name. */
  function SplitRankLabel(text: string): (r: Option<(nat, string)>)
  {
    var n := DigitRun(text);
    if 0 < n && n + 2 <= |text| && text[n..n + 2] == ". " then Some((ParseNat(text[..n]), text[n + 2..]))
    else None
  }

  lemma {:induction false} DigitRunOfDigits(d: string, rest: string)
    requires AllDigits(d)
    requires |rest| > 0 && !IsDigit(rest[0])
    ensures DigitRun(d + rest) == |d|
  {
    if |d| > 0 {
      assert (d + rest)[1..] == d[1..] + rest;
      DigitRunOfDigits(d[1..], rest);
    } else {
      assert d + rest == rest;
    }
  }

  /** Row `i` is labelled with rank i + 1 and the entry's name, and the label reads back to exactly those. */
  lemma RankLabelReadsBack(i: nat, name: string)
    ensures SplitRankLabel(RankLabel(i, name)) == Some((i + 1, name))
  {
    var digits := NatToString(i + 1);
    var text := RankLabel(i, name);
    assert text == digits + (". " + name);
    DigitRunOfDigits(digits, ". " + name);
    assert text[..|digits|] == digits;
    assert text[|digits|..|digits| + 2] == ". ";
    assert text[|digits| + 2..] == name;
    NatToStringRoundTrip(i + 1);
  }
}

=== FILE: optional.dfy ===
/** A value that may be absent: the model's stand-in for a null reference. */
module Optional {

  datatype Option<+T> = None | Some(value: T) {

    /** The wrapped value, or `default` when absent. */
    function GetOr(default: T): T {
      match this
      case Some(v) => v
      case None => default
    }
  }
}

=== FILE: player_control.dfy ===
/**
 The player's input handling (`PlayerController`): the buffered jump and
 roll requests consumed by the physics step, the speed it applies, the
 turn guard and the move input. The animator's current state is an input,
 read once: triggers set during the step change it only on a later frame.
 */
module PlayerControl {
  import opened Optional

  datatype Vec3 = Vec3(x: real, y: real, z: real)

  const Zero: Vec3 := Vec3(0.0, 0.0, 0.0)

  const GrabJump: string := "Grab Jump"
  const Jump: string := "Jump"

  /** The `_jump` and `_roll` requests set by the input callbacks. */
  datatype Requests = Requests(jump: bool, roll: bool)

  /** `OnJump`: records a jump request and nothing else. */
  function OnJump(q: Requests): (r: Requests)
    ensures r.jump && r.roll == q.roll
  {
    q.(jump := true)
  }

  /** `OnRoll`: records a roll request and nothing else. */
  function OnRoll(q: Requests): (r: Requests)
    ensures r.roll && r.jump == q.jump
  {
    q.(roll := true)
  }

  datatype Sound = RollSound | JumpSound

  /** One `Move` step: the requests left, animator triggers set, sounds played, and the speed applied (none on an early return). */
  datatype MoveStep = MoveStep(requests: Requests, triggers: seq<string>, sounds: seq<Sound>, speed: Option<real>)

  function Clamp01(t: real): (r: real)
    ensures 0.0 <= r <= 1.0
    ensures 0.0 <= t <= 1.0 ==> r == t
  {
    if t < 0.0 then 0.0 else if t > 1.0 then 1.0 else t
  }

  /** `Mathf.Lerp`, whose parameter is clamped to [0, 1]. */
  function Lerp(a: real, b: real, t: real): (r: real)
    ensures a <= b ==> a <= r <= b
    ensures b <= a ==> b <= r <= a
  {
    var c := Clamp01(t);
    var d := b - a;
    ScaleWithinUnit(d, c);
    assert 0.0 <= d ==> a <= a + d * c <= b;
    assert d <= 0.0 ==> b <= a + d * c <= a;
    a + d * c
  }

  /** Scaling by a factor in [0, 1] stays between zero and the value. */
  lemma ScaleWithinUnit(d: real, c: real)
    requires 0.0 <= c <= 1.0
    ensures d >= 0.0 ==> 0.0 <= d * c <= d
    ensures d <= 0.0 ==> d <= d * c <= 0.0
  {
    var e := 1.0 - c;
    assert d * c + d * e == d;
    if d >= 0.0 {
      NonNegativeProduct(d, c);
      NonNegativeProduct(d, e);
    } else {
      NonNegativeProduct(-d, c);
      NonNegativeProduct(-d, e);
    }
  }

  lemma NonNegativeProduct(x: real, y: real)
    requires x >= 0.0 && y >= 0.0
    ensures x * y >= 0.0
  {
  }

  /**
   `Move`. A roll request is consumed, with its trigger and sound, unless
   the animator is already in "Grab Jump"; while it is, the step returns
   early: the jump request waits and no speed is applied. Otherwise a jump
   request is consumed unless the animator is in "Jump", and the speed is
   interpolated from the input's magnitude between the two configured speeds.
   */
  function Move(q: Requests, state: string, magnitude: real, minSpeed: real, maxSpeed: real): (m: MoveStep)
    ensures m.requests.roll == (q.roll && state == GrabJump)
    ensures (GrabJump in m.triggers) <==> q.roll && state != GrabJump
    ensures state == GrabJump ==> m.requests.jump == q.jump && m.speed.None? && m.triggers == [] && m.sounds == []
    ensures state != GrabJump ==> m.requests.jump == (q.jump && state == Jump) && m.speed.Some?
    ensures (Jump in m.triggers) <==> q.jump && state != GrabJump && state != Jump
    ensures |m.triggers| == |m.sounds|
    ensures m.speed.Some? && minSpeed <= maxSpeed ==> minSpeed <= m.speed.value <= maxSpeed
  {
    var rolled := q.roll && state != GrabJump;
    var afterRoll := if rolled then q.(roll := false) else q;
    var rollTriggers := if rolled then [GrabJump] else [];
    var rollSounds := if rolled then [RollSound] else [];
    if state == GrabJump then
      MoveStep(afterRoll, rollTriggers, rollSounds, None)
    else
      var jumped := afterRoll.jump && state != Jump;
      var afterJump := if jumped then afterRoll.(jump := false) else afterRoll;
      var triggers := rollTriggers + (if jumped then [Jump] else []);
      var sounds := rollSounds + (if jumped then [JumpSound] else []);
      assert Jump in triggers <==> jumped;
      MoveStep(afterJump, triggers, sounds, Some(Lerp(minSpeed, maxSpeed, magnitude)))
  }

  /** A request survives a step in which it was not consumed, so it is consumed on a later one. */
  lemma RollWaitsOutGrabJump(q: Requests, magnitude: real, minSpeed: real, maxSpeed: real, later: string)
    requires q.roll && later != GrabJump
    ensures var first := Move(q, GrabJump, magnitude, minSpeed, maxSpeed);
            first.requests.roll && GrabJump in Move(first.requests, later, magnitude, minSpeed, maxSpeed).triggers
  {
  }

  /**
   A jump pressed while the animator is in "Grab Jump" or "Jump" is kept
   until a step in neither state, which consumes it and sets the trigger.
   */
  lemma JumpWaitsForFreeAnimator(q: Requests, busy: string, later: string, magnitude: real, minSpeed: real, maxSpeed: real)
    requires busy == GrabJump || busy == Jump
    requires later != GrabJump && later != Jump
    ensures var first := Move(OnJump(q), busy, magnitude, minSpeed, maxSpeed);
            var second := Move(first.requests, later, magnitude, minSpeed, maxSpeed);
            && first.requests.jump && Jump !in first.triggers
            && !second.requests.jump && Jump in second.triggers
  {
  }

  /** `Vector3.kEpsilon`: Unity's `==` on vectors holds when the difference is shorter than this. */
  const Epsilon: real := 0.00001

  function SqrMagnitude(v: Vec3): real {
    v.x * v.x + v.y * v.y + v.z * v.z
  }

  /**
   `Look` returns early when the input `== Vector3.zero`, which in Unity
   means a squared length below Epsilon squared. So an exactly zero input
   never turns the player, one with a component of at least Epsilon in size
   always does, and tinier inputs count as zero.
   */
  function Turns(input: Vec3): (turns: bool)
    ensures input == Zero ==> !turns
    ensures (Abs(input.x) >= Epsilon || Abs(input.y) >= Epsilon || Abs(input.z) >= Epsilon) ==> turns
  {
    SquaresCover(input);
    SqrMagnitude(input) >= Epsilon * Epsilon
  }

  function Abs(r: real): (a: real)
    ensures a >= 0.0 && (a == r || a == -r)
  {
    if r < 0.0 then -r else r
  }

  /** A component of size at least Epsilon already gives a squared length of at least Epsilon squared. */
  lemma SquaresCover(v: Vec3)
    ensures Abs(v.x) >= Epsilon || Abs(v.y) >= Epsilon || Abs(v.z) >= Epsilon ==> SqrMagnitude(v) >= Epsilon * Epsilon
  {
    SquareAtLeast(v.x);
    SquareAtLeast(v.y);
    SquareAtLeast(v.z);
  }

  lemma SquareAtLeast(r: real)
    ensures r * r >= 0.0
    ensures Abs(r) >= Epsilon ==> r * r >= Epsilon * Epsilon
  {
    var a := Abs(r);
    assert r * r == a * a;
    NonNegativeProduct(a, a);
    if a >= Epsilon {
      NonNegativeProduct(a - Epsilon, a);
      NonNegativeProduct(a - Epsilon, Epsilon);
      assert a * a - Epsilon * Epsilon == (a - Epsilon) * a + (a - Epsilon) * Epsilon;
    }
  }

  /** An input within Unity's tolerance of zero, though not zero, leaves the player facing where it was. */
  lemma TinyInputDoesNotTurn()
    ensures Vec3(0.000001, 0.0, 0.0) != Zero && !Turns(Vec3(0.000001, 0.0, 0.0))
  {
  }

  /** `OnMove`: ignored on Android, where the joystick sets the input; otherwise the stick's (x, y) becomes (x, 0, y). */
  function OnMove(onAndroid: bool, input: Vec3, x: real, y: real): (r: Vec3)
    ensures onAndroid ==> r == input
    ensures !onAndroid ==> r.y == 0.0 && r.x == x && r.z == y
  {
    if onAndroid then input else Vec3(x, 0.0, y)
  }

  /**
   Off Android, the player turns after a move input exactly when the stick's
   squared deflection reaches Epsilon squared: never for a centred stick,
   always when either axis is at least Epsilon off centre.
   */
  lemma MoveThenLook(input: Vec3, x: real, y: real)
    ensures Turns(OnMove(false, input, x, y)) <==> x * x + y * y >= Epsilon * Epsilon
    ensures x == 0.0 && y == 0.0 ==> !Turns(OnMove(false, input, x, y))
    ensures Abs(x) >= Epsilon || Abs(y) >= Epsilon ==> Turns(OnMove(false, input, x, y))
  {
    var v := OnMove(false, input, x, y);
    assert SqrMagnitude(v) == x * x + y * y;
  }
}

=== FILE: sorting.dfy ===
/**
 A stable insertion sort over a caller-supplied "less or equal" relation.

 The game sorts twice: the enemy's candidate buffer with a comparer
 (`System.Array.Sort`) and the leaderboard with `OrderBy` on the time.
 Both are modelled with this one sort; its guarantees (a permutation,
 ordered by the relation, ties kept in input order) are proved once here.
 */
module Sorting {

  /** `le` is total and transitive, as a comparer's "<= 0" must be. */
  ghost predicate TotalPreorder<T(!new)>(le: (T, T) -> bool) {
    && (forall x, y :: le(x, y) || le(y, x))
    && (forall x, y, z :: le(x, y) && le(y, z) ==> le(x, z))
  }

  ghost predicate SortedBy<T>(le: (T, T) -> bool, s: seq<T>) {
    forall i, j :: 0 <= i < j < |s| ==> le(s[i], s[j])
  }

  /** `x` and `k` are tied under `le`. */
  predicate Tied<T>(le: (T, T) -> bool, x: T, k: T) {
    le(x, k) && le(k, x)
  }

  /** The elements of `s` tied with `k`, in their order in `s`. */
  function TiesOf<T>(le: (T, T) -> bool, s: seq<T>, k: T): seq<T> {
    if |s| == 0 then []
    else (if Tied(le, s[0], k) then [s[0]] else []) + TiesOf(le, s[1..], k)
  }

  /** Places `x` in front of the first element it is not greater than. */
  function Insert<T>(le: (T, T) -> bool, x: T, s: seq<T>): (r: seq<T>)
    ensures |r| == |s| + 1
    ensures multiset(r) == multiset(s) + multiset{x}
  {
    if |s| == 0 then [x]
    else if le(x, s[0]) then [x] + s
    else
      assert s == [s[0]] + s[1..];
      [s[0]] + Insert(le, x, s[1..])
  }

  function Sort<T>(le: (T, T) -> bool, s: seq<T>): (r: seq<T>)
    ensures |r| == |s|
    ensures multiset(r) == multiset(s)
  {
    if |s| == 0 then []
    else
      assert s == [s[0]] + s[1..];
      Insert(le, s[0], Sort(le, s[1..]))
  }

  lemma {:induction false} InsertSorted<T(!new)>(le: (T, T) -> bool, x: T, s: seq<T>)
    requires TotalPreorder(le)
    requires SortedBy(le, s)
    ensures SortedBy(le, Insert(le, x, s))
  {
    if |s| == 0 || le(x, s[0]) {
    } else {
      var t := Insert(le, x, s[1..]);
      InsertSorted(le, x, s[1..]);
      forall y | y in t
        ensures le(s[0], y)
      {
        assert y in multiset(t);
        if y != x {
          assert y in multiset(s[1..]);
          var j :| 0 <= j < |s[1..]| && s[1..][j] == y;
          assert s[1 + j] == y;
        }
      }
      ConsSorted(le, s[0], t);
    }
  }

  /** A sorted sequence stays sorted with a new head no greater than any of its elements. */
  lemma ConsSorted<T>(le: (T, T) -> bool, h: T, t: seq<T>)
    requires SortedBy(le, t)
    requires forall y :: y in t ==> le(h, y)
    ensures SortedBy(le, [h] + t)
  {
    var r := [h] + t;
    forall i, j | 0 <= i < j < |r|
      ensures le(r[i], r[j])
    {
      if i == 0 {
        assert r[j] == t[j - 1];
        assert r[j] in t;
      } else {
        assert r[i] == t[i - 1] && r[j] == t[j - 1];
      }
    }
  }


  /** The sort orders its output by `le`. */
  lemma {:induction false} SortSorted<T(!new)>(le: (T, T) -> bool, s: seq<T>)
    requires TotalPreorder(le)
    ensures SortedBy(le, Sort(le, s))
  {
    if |s| > 0 {
      SortSorted(le, s[1..]);
      InsertSorted(le, s[0], Sort(le, s[1..]));
    }
  }

  lemma SortedTail<T>(le: (T, T) -> bool, s: seq<T>)
    requires |s| > 0 && SortedBy(le, s)
    ensures SortedBy(le, s[1..])
  {
    forall i, j | 0 <= i < j < |s[1..]|
      ensures le(s[1..][i], s[1..][j])
    {
      assert s[1..][i] == s[i + 1] && s[1..][j] == s[j + 1];
    }
  }

  lemma TiesOfCons<T>(le: (T, T) -> bool, y: T, s: seq<T>, k: T)
    ensures TiesOf(le, [y] + s, k) == (if Tied(le, y, k) then [y] else []) + TiesOf(le, s, k)
  {
    assert ([y] + s)[0] == y && ([y] + s)[1..] == s;
  }

  lemma {:induction false} InsertKeepsTies<T(!new)>(le: (T, T) -> bool, x: T, s: seq<T>, k: T)
    requires TotalPreorder(le)
    requires SortedBy(le, s)
    ensures TiesOf(le, Insert(le, x, s), k)
         == (if Tied(le, x, k) then [x] else []) + TiesOf(le, s, k)
  {
    if |s| == 0 {
      TiesOfCons(le, x, s, k);
    } else if le(x, s[0]) {
      TiesOfCons(le, x, s, k);
    } else {
      var t := Insert(le, x, s[1..]);
      SortedTail(le, s);
      InsertKeepsTies(le, x, s[1..], k);
      TiesOfCons(le, s[0], t, k);
      TiesOfCons(le, s[0], s[1..], k);
      assert [s[0]] + s[1..] == s;
      if Tied(le, x, k) {
        // s[0] cannot be tied with k too: that would give le(x, s[0]).
        assert !Tied(le, s[0], k);
      }
    }
  }

  /** Elements that `le` ties keep their input order: the sort is stable. */
  lemma {:induction false} SortStable<T(!new)>(le: (T, T) -> bool, s: seq<T>, k: T)
    requires TotalPreorder(le)
    ensures TiesOf(le, Sort(le, s), k) == TiesOf(le, s, k)
  {
    if |s| > 0 {
      SortSorted(le, s[1..]);
      SortStable(le, s[1..], k);
      InsertKeepsTies(le, s[0], Sort(le, s[1..]), k);
    }
  }
}

=== FILE: text.dfy ===
/** Decimal digits as characters: the integer-to-text conversions the game's labels use. */
module Digits {

  predicate IsDigit(c: char) {
    '0' <= c <= '9'
  }

  function DigitChar(d: int): (c: char)
    requires 0 <= d < 10
    ensures IsDigit(c)
  {
    (48 + d) as char
  }

  function DigitValue(c: char): (d: int)
    requires IsDigit(c)
    ensures 0 <= d < 10
  {
    c as int - 48
  }

  lemma DigitRoundTrip(d: int)
    requires 0 <= d < 10
    ensures DigitValue(DigitChar(d)) == d
  {
  }

  predicate AllDigits(s: string) {
    forall i :: 0 <= i < |s| ==> IsDigit(s[i])
  }

  /** `n` zero-padded to two digits, as the custom format specifiers "mm", "ss" and "ff" print it. */
  function Pad2(n: int): (s: string)
    requires 0 <= n < 100
    ensures |s| == 2 && AllDigits(s)
  {
    [DigitChar(n / 10), DigitChar(n % 10)]
  }

  /** The value of a string of digits read in base ten. */
  function ParseNat(s: string): (n: nat)
    requires AllDigits(s)
  {
    if |s| == 0 then 0 else ParseNat(s[..|s| - 1]) * 10 + DigitValue(s[|s| - 1])
  }

  lemma Pad2RoundTrip(n: int)
    requires 0 <= n < 100
    ensures ParseNat(Pad2(n)) == n
  {
    var s := Pad2(n);
    assert s[..1][..0] == [];
    assert s[..1] == [DigitChar(n / 10)];
    DigitRoundTrip(n / 10);
    DigitRoundTrip(n % 10);
    assert ParseNat(s[..1]) == n / 10;
  }

  lemma ParseTwoDigits(s: string)
    requires |s| == 2 && AllDigits(s)
    ensures ParseNat(s) == DigitValue(s[0]) * 10 + DigitValue(s[1])
    ensures ParseNat(s) < 100
  {
    var head := s[..1];
    assert head[..0] == [] && head[0] == s[0];
    assert ParseNat(head) == DigitValue(s[0]);
    assert s[..|s| - 1] == head;
  }

  /** `Int32.ToString()` for a non-negative value: no sign, no leading zeros. */
  function NatToString(n: nat): (s: string)
    ensures |s| > 0 && AllDigits(s)
    ensures |s| > 1 ==> s[0] != '0'
  {
    if n < 10 then [DigitChar(n)] else NatToString(n / 10) + [DigitChar(n % 10)]
  }

  /** Reading the decimal text back gives the number: `NatToString` loses nothing. */
  lemma {:induction false} NatToStringRoundTrip(n: nat)
    ensures ParseNat(NatToString(n)) == n
  {
    var s := NatToString(n);
    if n < 10 {
      assert s[..0] == [];
    } else {
      NatToStringRoundTrip(n / 10);
      assert s[..|s| - 1] == NatToString(n / 10);
    }
  }
}

=== FILE: timespan.dfy ===
/**
 .NET `TimeSpan` values as signed counts of 100-nanosecond ticks, the C#
 component properties the game reads (which truncate toward zero), and the
 custom format string "mm\:ss\:ff" used for every clock the game shows.
 */
module TimeSpans {
  import opened Optional
  import opened Digits

  const TicksPerMillisecond: int := 10_000
  const TicksPerSecond: int := 10_000_000
  const TicksPerMinute: int := 600_000_000
  const TicksPerHour: int := 36_000_000_000
  const TicksPerDay: int := 864_000_000_000
  /** Ticks in one hundredth of a second: the unit of the "ff" specifier. */
  const TicksPerHundredth: int := 100_000

  /** C#'s integer `/`, which truncates toward zero (Dafny's rounds down). */
  function Quot(a: int, b: int): (q: int)
    requires b > 0
    ensures a >= 0 ==> q == a / b
    ensures a < 0 ==> q == -((-a) / b)
  {
    if a >= 0 then a / b else -((-a) / b)
  }

  /** C#'s `%`, whose result takes the sign of the dividend. */
  function Rem(a: int, b: int): (r: int)
    requires b > 0
    ensures a >= 0 ==> r == a % b
    ensures a < 0 ==> r == -((-a) % b)
  {
    a - b * Quot(a, b)
  }

  function Abs(a: int): nat {
    if a < 0 then -a else a
  }

  /**
   `Quot` rounds toward zero: the quotient's magnitude is the largest number
   of whole divisors that fit in the dividend's magnitude, and its sign is
   the dividend's.
   */
  lemma QuotTruncates(a: int, b: int)
    requires b > 0
    ensures Abs(Quot(a, b)) * b <= Abs(a) < (Abs(Quot(a, b)) + 1) * b
    ensures a >= 0 ==> Quot(a, b) >= 0
    ensures a < 0 ==> Quot(a, b) <= 0
  {
  }

  /** `new TimeSpan(0, 0, seconds)`. */
  function FromSeconds(seconds: int): int {
    seconds * TicksPerSecond
  }

  /**
   `TimeSpan.Milliseconds`: the millisecond field of the value, carrying its
   sign. It is negative only for a value at least one millisecond below zero
   that is not a whole number of seconds.
   */
  function Milliseconds(t: int): (ms: int)
    ensures -1000 < ms < 1000
    ensures ms < 0 <==> t < 0 && ((-t) / TicksPerMillisecond) % 1000 != 0
  {
    Rem(Quot(t, TicksPerMillisecond), 1000)
  }

  /** The three fields "mm\:ss\:ff" prints. */
  datatype Clock = Clock(minutes: int, seconds: int, hundredths: int)

  predicate ValidClock(c: Clock) {
    && 0 <= c.minutes < 60
    && 0 <= c.seconds < 60
    && 0 <= c.hundredths < 100
  }

  /**
   The fields of `t` as the custom formatter reads them: it drops the whole
   days and the sign, then takes the minute and second fields of what is
   left and the first two digits of its second fraction. Hours are never shown.
   */
  function ClockOf(t: int): (c: Clock)
    ensures ValidClock(c)
  {
    var time := Abs(Rem(t, TicksPerDay));
    Clock(time / TicksPerMinute % 60, time / TicksPerSecond % 60, time % TicksPerSecond / TicksPerHundredth)
  }

  function Render(c: Clock): (text: string)
    requires ValidClock(c)
  {
    Pad2(c.minutes) + ":" + Pad2(c.seconds) + ":" + Pad2(c.hundredths)
  }

  /** `t.ToString("mm\\:ss\\:ff")`. */
  function Format(t: int): (text: string)
    ensures |text| == 8
    ensures text[2] == ':' && text[5] == ':'
    ensures forall i :: 0 <= i < 8 && i != 2 && i != 5 ==> IsDigit(text[i])
  {
    Render(ClockOf(t))
  }

  /** Reads a clock text back; `None` for anything `Render` cannot produce. */
  function Parse(text: string): Option<Clock> {
    if |text| == 8 && text[2] == ':' && text[5] == ':'
       && AllDigits(text[0..2]) && AllDigits(text[3..5]) && AllDigits(text[6..8])
       && ParseNat(text[0..2]) < 60 && ParseNat(text[3..5]) < 60
    then Some(Clock(ParseNat(text[0..2]), ParseNat(text[3..5]), ParseNat(text[6..8])))
    else None
  }

  /** Every clock read back from a text has its fields in range. */
  lemma ParseInRange(text: string)
    ensures Parse(text).Some? ==> ValidClock(Parse(text).value)
  {
    if Parse(text).Some? {
      ParseTwoDigits(text[6..8]);
    }
  }

  /** Rendering then parsing gives the clock back. */
  lemma ParseRender(c: Clock)
    requires ValidClock(c)
    ensures Parse(Render(c)) == Some(c)
  {
    var text := Render(c);
    assert text[0..2] == Pad2(c.minutes);
    assert text[3..5] == Pad2(c.seconds);
    assert text[6..8] == Pad2(c.hundredths);
    Pad2RoundTrip(c.minutes);
    Pad2RoundTrip(c.seconds);
    Pad2RoundTrip(c.hundredths);
  }

  lemma Pad2OfParse(s: string)
    requires |s| == 2 && AllDigits(s)
    ensures ParseNat(s) < 100
    ensures Pad2(ParseNat(s)) == s
  {
    ParseTwoDigits(s);
  }

  /** Parsing then rendering gives the text back: `Parse` accepts exactly the rendered texts. */
  lemma RenderParse(text: string)
    requires Parse(text).Some?
    ensures ValidClock(Parse(text).value) && Render(Parse(text).value) == text
  {
    Pad2OfParse(text[0..2]);
    Pad2OfParse(text[3..5]);
    Pad2OfParse(text[6..8]);
    assert text == text[0..2] + ":" + text[3..5] + ":" + text[6..8];
  }

  /** What a shown timer text means: it parses back to the fields of the time it was made from. */
  lemma ParseFormat(t: int)
    ensures Parse(Format(t)) == Some(ClockOf(t))
  {
    ParseRender(ClockOf(t));
  }

  /**
   The fields split the time within its hour: minutes, seconds and
   hundredths add up to the absolute value modulo one hour, up to less than
   one hundredth of a second that the format truncates.
   */
  lemma ClockSplitsTheHour(t: int)
    ensures var c := ClockOf(t);
            var withinHour := Abs(t) % TicksPerHour;
            var shown := c.minutes * TicksPerMinute + c.seconds * TicksPerSecond + c.hundredths * TicksPerHundredth;
            shown <= withinHour < shown + TicksPerHundredth
  {
    var x := Abs(t);
    var y := Abs(Rem(t, TicksPerDay));
    assert y == x % TicksPerDay;
    DayKeepsHour(x);
    var r := x % TicksPerHour;
    MinuteField(y);
    SecondField(y);
    FractionField(y);
    WithinHourSplits(r);
  }

  lemma DayKeepsHour(x: nat)
    ensures (x % TicksPerDay) % TicksPerHour == x % TicksPerHour
  {
    var q := x / TicksPerDay;
    var d := x % TicksPerDay;
    assert x == q * TicksPerDay + d;
    var h := d / TicksPerHour;
    var f := d % TicksPerHour;
    assert d == h * TicksPerHour + f;
    DivModUnique(x, TicksPerHour, q * 24 + h, f);
  }

  lemma MinuteField(y: nat)
    ensures y / TicksPerMinute % 60 == (y % TicksPerHour) / TicksPerMinute
  {
    var h := y / TicksPerHour;
    var r := y % TicksPerHour;
    var m := r / TicksPerMinute;
    var f := r % TicksPerMinute;
    assert r == m * TicksPerMinute + f;
    assert m < 60;
    DivModUnique(y, TicksPerMinute, h * 60 + m, f);
    DivModUnique(h * 60 + m, 60, h, m);
  }

  lemma SecondField(y: nat)
    ensures y / TicksPerSecond % 60 == (y % TicksPerHour) % TicksPerMinute / TicksPerSecond
  {
    var q := y / TicksPerMinute;
    var r := y % TicksPerMinute;
    var s := r / TicksPerSecond;
    var f := r % TicksPerSecond;
    assert r == s * TicksPerSecond + f;
    assert s < 60;
    DivModUnique(y, TicksPerSecond, q * 60 + s, f);
    DivModUnique(q * 60 + s, 60, q, s);
    var h := y / TicksPerHour;
    DivModUnique(y % TicksPerHour, TicksPerMinute, q - h * 60, r);
  }

  /** Division and remainder are determined by any decomposition with a remainder in range. */
  lemma DivModUnique(y: int, m: int, a: int, b: int)
    requires m > 0 && 0 <= b < m && y == a * m + b
    ensures y / m == a && y % m == b
  {
    var a' := y / m;
    var b' := y % m;
    assert y == a' * m + b';
    if a > a' {
      AtLeastOnce(a - a', m);
      Distribute(a, a', m);
    } else if a < a' {
      AtLeastOnce(a' - a, m);
      Distribute(a', a, m);
    }
  }

  lemma AtLeastOnce(k: int, m: int)
    requires k >= 1 && m > 0
    ensures k * m >= m
  {
    assert k * m == (k - 1) * m + m;
  }

  lemma Distribute(a: int, c: int, m: int)
    ensures (a - c) * m == a * m - c * m
  {
  }

  lemma FractionField(y: nat)
    ensures y % TicksPerSecond == (y % TicksPerHour) % TicksPerSecond
  {
    var h := y / TicksPerHour;
    var r := y % TicksPerHour;
    assert y == h * TicksPerHour + r;
    var s := r / TicksPerSecond;
    var f := r % TicksPerSecond;
    assert r == s * TicksPerSecond + f;
    DivModUnique(y, TicksPerSecond, h * 3600 + s, f);
  }

  lemma WithinHourSplits(r: nat)
    requires r < TicksPerHour
    ensures var shown := r / TicksPerMinute * TicksPerMinute
                       + r % TicksPerMinute / TicksPerSecond * TicksPerSecond
                       + r % TicksPerSecond / TicksPerHundredth * TicksPerHundredth;
            shown <= r < shown + TicksPerHundredth
  {
    var m := r / TicksPerMinute;
    var rm := r % TicksPerMinute;
    assert r == m * TicksPerMinute + rm;
    var s := rm / TicksPerSecond;
    var rs := rm % TicksPerSecond;
    assert rm == s * TicksPerSecond + rs;
    assert r % TicksPerSecond == rs by {
      assert r == (m * 60 + s) * TicksPerSecond + rs;
    }
  }

  /** The custom format prints no sign. */
  lemma FormatDropsSign(t: int)
    ensures Format(-t) == Format(t)
  {
  }

  /** The custom format never shows hours: times an hour apart read the same. */
  lemma FormatDropsHours(t: nat)
    ensures Format(t + TicksPerHour) == Format(t)
  {
    assert Abs(t + TicksPerHour) % TicksPerHour == Abs(t) % TicksPerHour;
    ClockDeterminedByHour(t, t + TicksPerHour);
  }

  /** Two fields-triples that split the same within-hour time are equal. */
  lemma ClockDeterminedByHour(t: int, u: int)
    requires Abs(t) % TicksPerHour == Abs(u) % TicksPerHour
    ensures ClockOf(t) == ClockOf(u)
  {
    var a := Abs(t) % TicksPerHour;
    ClockSplitsTheHour(t);
    ClockSplitsTheHour(u);
    var c, d := ClockOf(t), ClockOf(u);
    assert a / TicksPerHundredth == c.minutes * 6000 + c.seconds * 100 + c.hundredths;
    assert a / TicksPerHundredth == d.minutes * 6000 + d.seconds * 100 + d.hundredths;
  }

  /** A pre-timer that overshoots zero by exactly one second still reads a zero millisecond field. */
  lemma WholeSecondOvershootHasNoNegativeMilliseconds()
    ensures Milliseconds(-TicksPerSecond) == 0
  {
  }
}
